=== FILE: README.md ===
# NetSimulation core in Dafny

A functional model of the opinion-diffusion engine of NetSimulation (package
`com.b14.model`), with proofs about it.

In the engine, agents hold a belief in [0, 1], an openness, a dissonance
threshold and a confidence set. They sit in an undirected friendship graph
with a global connection limit. The model covers four parts:

- **Agent rules** (`Node.java`): symmetric neighbour addition and removal,
  the message-acceptance and pruning pass, belief pooling, and
  friend-of-friend edge formation.
- **Engine** (`GraphModel.java`): the diffusion epoch, the global dissonance
  update, enforcing a new connection limit, and loading agents from a file.
- **Initial topology** (`GraphPhysicsModel.java`): sequential node creation,
  the preferential-attachment tree, and pairing of dead ends.
- **Recommendation strategies** (`RecommendationStrategy.java`): random,
  polarize and neutralize.

Modelling choices:

- An agent's id is its index in the agent list. The adjacency is a
  `seq<seq<nat>>` indexed by id. Each list keeps the order of the Java
  `ArrayList`, because the order decides which edge forms first.
- Beliefs, openness and dissonance are `real`s.
- Every random number is drawn from an oracle parameter (`nat -> nat` and
  similar), reduced with `%` the way `Random.nextInt(bound)` is used.
- A rejection loop that redraws until it hits "another" element is modelled
  as a direct choice among the other elements.
- Where the Java throws part-way through an update, the model returns the
  partially updated state together with a `Fault`.

Modules, one per file:

- `Outcome` (`outcome.dfy`): the `Fault`, `Result` and `Option` types.
- `Graph` (`graph.dfy`): adjacency lists and `addNeighbour` / `removeNeighbour`.
- `Agents` (`agent.dfy`): the agent record and `receiveMessages`, `updateBelief`, `fraternize` and the setters.
- `Recommendation` (`recommend.dfy`): the three strategies.
- `Topology` (`topology.dfy`): `createNodes`, `connectProportionate`, `createLoops`, `setupNetworkStructure`.
- `Text` (`text.dfy`): `String.strip` and `String.split(",")` as the loader uses them.
- `Engine` (`engine.dfy`): the `GraphModel` operations.

Properties proved:

- Every epoch keeps the graph simple: symmetric, no self-loops, no parallel edges.
- Every epoch keeps every degree within the connection limit.
- Every edge `receiveMessages` adds joins the agent to an accepted candidate, and every accepted candidate gets its edge unless a limit blocks it.
- The initial construction yields a spanning tree rooted at agent 0, and the
  loop-pairing phase keeps it connected.
- Each new belief is the mean of the pooled beliefs, so it lies between the smallest and the largest.
- The strategies return exactly the filtered agents, up to their size bound.
- Trimming to individual limits succeeds and is idempotent. It bounds each agent by its own `individualLimit`, so the new global limit bounds every degree when no individual limit exceeds it.
- The loader reports a header fault exactly when the file is empty or its stripped first line is not `neuroticism,extraversion,openness`. A file with a good header can still fail later, at a malformed data line or in the network set-up.

## Model

| member | source | states |
|---|---|---|
| Graph.AddNeighbour | NetSimulation/src/com/b14/model/Node.java:60-76 | The edge is added on both sides exactly when it is absent and both ends are below the limit; otherwise the lists are unchanged. A self edge is appended twice. For two distinct agents no degree rises above the larger of its old value and the limit. |
| Graph.AddNeighbourEdges | NetSimulation/src/com/b14/model/Node.java:60-65 | On a simple graph, the edge relation afterwards is the old relation plus {a, b} in both directions, exactly when the edge was added. |
| Graph.AddNeighbourSimple | NetSimulation/src/com/b14/model/Node.java:60-65 | Adding a neighbour other than oneself keeps a simple graph simple and loses no edge. |
| Graph.RemoveNeighbour | NetSimulation/src/com/b14/model/Node.java:83-88 | A no-op when b is not listed. Only the lists of a and b change, no list grows, and a's list shrinks when b was listed. Nothing new appears in any list. |
| Graph.RemoveNeighbourEdges | NetSimulation/src/com/b14/model/Node.java:83-88 | On a simple graph, the edge relation afterwards is the old relation minus {a, b} in both directions. |
| Graph.RemoveNeighbourSimple | NetSimulation/src/com/b14/model/Node.java:83-88 | Removal keeps a simple graph simple, and afterwards neither agent lists the other. |
| Graph.RemoveFirst | NetSimulation/src/com/b14/model/Node.java:85-86 | `ArrayList.remove(Object)` takes away one occurrence: the multiset of the list loses exactly one copy of x. |
| Graph.IndexOf | NetSimulation/src/com/b14/model/Node.java:85-86 | The position `indexOf` finds holds x, and x does not occur before it. |
| Graph.RemoveFirstAt | NetSimulation/src/com/b14/model/Node.java:85-86 | `remove(Object)` takes out exactly the first occurrence of x: the result is the list without that position, the rest in their old order. |
| Graph.RemoveFirstFacts | NetSimulation/src/com/b14/model/Node.java:85-86 | Removal shortens the list by one when x is present and is the identity otherwise. It adds no element. On a duplicate-free list, x is gone afterwards. |
| Graph.InRemoveFirst | NetSimulation/src/com/b14/model/Node.java:85-86 | On a duplicate-free list, y survives the removal of x exactly when y was present and differs from x. |
| Graph.EmptyIsSimple | NetSimulation/src/com/b14/model/Node.java:39-41 | Freshly created agents, which have no neighbours, form a simple graph with degree sum 0. |
| Agents.UpdateBelief | NetSimulation/src/com/b14/model/Node.java:141-149 | The new belief is the mean of the own belief and the confidence-set beliefs: multiplied by the set size plus one, it equals their sum. It therefore lies between their minimum and maximum, and it is the old belief when the set is empty. |
| Agents.ReceiveMessagesConfidence | NetSimulation/src/com/b14/model/Node.java:111-119 | The confidence set grows by exactly the candidates, neighbours first and then recommendations, whose belief was within openness of the belief held BEFORE the call. |
| Agents.ReceiveMessagesCounters | NetSimulation/src/com/b14/model/Node.java:116-128 | Each rejected candidate adds one to both `numberOfConflicts` and `numberOfContacts`. Accepted candidates add to neither, so the difference of the counters is preserved. |
| Agents.ReceiveMessagesPruning | NetSimulation/src/com/b14/model/Node.java:111-135 | On a simple graph with the agent not recommended to itself, the graph stays simple. No pruned agent is a neighbour afterwards, and only rejected candidates are pruned. Dissonance changes by -0.05 per pruning mark, even when the removal was a no-op. |
| Agents.ReceiveMessagesBelief | NetSimulation/src/com/b14/model/Node.java:111-135 | The new belief is the mean of the belief held before the call and the beliefs of the final confidence set. It lies within their range and is unchanged when that set is empty. |
| Agents.ReceiveMessagesValid | NetSimulation/src/com/b14/model/Node.java:111-135 | Ids, adjacency ranges and confidence sets stay well formed, and the agent's identity and personality fields do not change. |
| Agents.ReceiveMessagesDegrees | NetSimulation/src/com/b14/model/Node.java:116-133 | On a simple graph, no degree rises above the larger of its old value and the connection limit. |
| Agents.ReceiveMessages | NetSimulation/src/com/b14/model/Node.java:111-135 | `receiveMessages` changes only the receiving agent's record and the adjacency. The agent count and the connection limit are kept. |
| Agents.ReceiveMessagesNewEdge | NetSimulation/src/com/b14/model/Node.java:111-135 | On a simple graph, with the agent not recommended to itself, every edge the call adds joins the agent to a recommended agent that was not yet a neighbour and whose belief was within openness. |
| Agents.ReceiveMessagesAttempts | NetSimulation/src/com/b14/model/Node.java:116-119 | Every candidate within openness gets its edge attempt: after the acceptance pass it is a neighbour of the agent, or one of the two has reached the connection limit. |
| Agents.Consider | NetSimulation/src/com/b14/model/Node.java:116-129 | One candidate. An accepted one joins the confidence set, is not pruned, and ends up a neighbour unless one end was at the limit. A rejected one leaves the graph and the confidence set alone and adds one to both counters. |
| Agents.ConsiderFacts | NetSimulation/src/com/b14/model/Node.java:116-129 | One candidate keeps the traits and belief, changes the confidence set and counters as accepted or rejected, marks only a rejected candidate, and only adds the edge to an accepted candidate. |
| Agents.ConsiderEdges | NetSimulation/src/com/b14/model/Node.java:117-119 | The graph side of one candidate: no edge is lost, no list shrinks, the only possible new edge joins the agent and an accepted candidate, and simplicity is kept. |
| Agents.ConsiderAllAgent | NetSimulation/src/com/b14/model/Node.java:116-129 | Over the whole acceptance loop, the confidence set gains exactly the accepted candidates and both counters gain the number of rejected ones. |
| Agents.ConsiderAllPruned | NetSimulation/src/com/b14/model/Node.java:116-129 | Only candidates that were rejected can be marked for pruning. |
| Agents.ConsiderAllDegrees | NetSimulation/src/com/b14/model/Node.java:116-129 | The acceptance loop raises no degree above the larger of its old value and the limit, when the agent is not its own candidate. |
| Agents.ConsiderAllSimple | NetSimulation/src/com/b14/model/Node.java:116-129 | The acceptance loop keeps a simple graph simple and loses no edge, when the agent is not its own candidate. |
| Agents.ConsiderAllGrows | NetSimulation/src/com/b14/model/Node.java:116-129 | The acceptance loop only adds edges: every list keeps its members and no list shrinks. |
| Agents.ConsiderAllNewEdge | NetSimulation/src/com/b14/model/Node.java:116-129 | Every edge the acceptance loop adds joins the agent to one of the candidates it accepted. |
| Agents.ConsiderAllAttempts | NetSimulation/src/com/b14/model/Node.java:117-119 | Every accepted candidate ends the loop as a neighbour of the agent, unless the agent or the candidate is at the limit. |
| Agents.AcceptedMembers | NetSimulation/src/com/b14/model/Node.java:117 | A candidate is accepted exactly when it is a candidate whose belief is strictly within openness of the receiver's belief. |
| Agents.AcceptedSameBeliefs | NetSimulation/src/com/b14/model/Node.java:117 | Which candidates are accepted depends only on their beliefs and on the receiver's belief and openness. |
| Agents.PruneShrinks | NetSimulation/src/com/b14/model/Node.java:130-133 | The pruning loop only shortens neighbour lists. |
| Agents.Prune | NetSimulation/src/com/b14/model/Node.java:130-133 | Dissonance changes by -0.05 per pruning mark. On a simple graph the result is simple, no pruned agent is a neighbour of the receiver in either direction, and no edge is added. |
| Agents.ThroughNeighbourMembers | NetSimulation/src/com/b14/model/Node.java:158-166 | A second neighbour reached through n is collected exactly when it is neither the agent nor n and its belief is within openness. |
| Agents.FriendsOfFriendsMembers | NetSimulation/src/com/b14/model/Node.java:156-167 | An agent is a fraternize candidate exactly when it is a friend of a friend other than the agent and the intermediate neighbour, with belief within openness. Candidates come from the graph before any edge is added. |
| Agents.FriendsOfFriendsInRange | NetSimulation/src/com/b14/model/Node.java:159-161 | Candidates are agents of the network and never the agent itself. |
| Agents.ThroughNeighbourCount | NetSimulation/src/com/b14/model/Node.java:158-166 | The candidates collected through one neighbour are as many as the positions in that neighbour's list whose agent qualifies. |
| Agents.FriendsOfFriendsCount | NetSimulation/src/com/b14/model/Node.java:156-167 | The candidates are as many as the qualifying (neighbour position, second-neighbour position) pairs, so an agent reached through two neighbours counts twice. |
| Agents.AddAllFacts | NetSimulation/src/com/b14/model/Node.java:169-171 | Adding the candidates in order keeps a simple graph simple, loses no edge, and raises no degree above the larger of its old value and the limit. |
| Agents.AddAllNewEdge | NetSimulation/src/com/b14/model/Node.java:169-171 | Every edge the addition loop creates joins the agent to one of the candidates. |
| Agents.AddAllKeepsFull | NetSimulation/src/com/b14/model/Node.java:169-171 | An agent already at or above the limit gains no neighbour from the addition loop. |
| Agents.FraternizeEdges | NetSimulation/src/com/b14/model/Node.java:155-172 | `fraternize` keeps a simple graph simple, loses no edge, and respects the connection limit. |
| Agents.FraternizeNewNeighbours | NetSimulation/src/com/b14/model/Node.java:155-172 | Every edge `fraternize` adds joins the agent to a friend of a friend within openness, never to itself. |
| Agents.FraternizeDissonance | NetSimulation/src/com/b14/model/Node.java:155-172 | Dissonance drops by 0.05 per qualifying (neighbour, second neighbour) pair, counted by position. The connection limit plays no part in the agent's new record, so the drop is the same whether or not the edges form. Traits and belief are unchanged. |
| Agents.FraternizeKeepsFull | NetSimulation/src/com/b14/model/Node.java:155-172 | Anyone's `fraternize` leaves the neighbour list of an agent at or above the limit unchanged. |
| Agents.FraternizeValid | NetSimulation/src/com/b14/model/Node.java:155-172 | `fraternize` keeps the network well formed and leaves the confidence set alone. |
| Agents.Fraternize | NetSimulation/src/com/b14/model/Node.java:155-172 | `fraternize` changes only the agent's own record and the adjacency, and keeps the agent count, the list count and the limit. |
| Agents.CanTwoConnectBoth | NetSimulation/src/com/b14/model/Node.java:73-76 | Two agents may connect exactly when each of them passes `getCanConnect`. |
| Agents.CannotConnectNoEdge | NetSimulation/src/com/b14/model/Node.java:274-276 | An agent that fails `getCanConnect` gains no edge from `addNeighbour`, in either direction. |
| Agents.SetDissonance | NetSimulation/src/com/b14/model/Node.java:298-300 | The dissonance changes by exactly the given value, and no other field changes. |
| Agents.Reset | NetSimulation/src/com/b14/model/Node.java:234-236 | The confidence set becomes empty. Traits, belief, dissonance and both counters are kept. |
| Recommendation.RecommendRandom | NetSimulation/src/com/b14/model/recommendationstrategies/RecommendationStrategy.java:31-42 | It returns exactly max(size, 0) agents, none of them the requester; repeats are allowed. It fails, standing for a loop that never ends, exactly when size > 0 and no other agent exists. |
| Recommendation.OtherAgentOnto | NetSimulation/src/com/b14/model/recommendationstrategies/RecommendationStrategy.java:34-38 | Every agent other than the requester can be the accepted draw of the rejection loop. |
| Recommendation.ScanIsTake | NetSimulation/src/com/b14/model/recommendationstrategies/RecommendationStrategy.java:54-65 | The scan with its early stop returns exactly the first size + 1 qualifying agents in list order, or all of them if there are fewer. |
| Recommendation.QualifyingFacts | NetSimulation/src/com/b14/model/recommendationstrategies/RecommendationStrategy.java:54-65 | Every qualifying agent is an agent other than the requester that passes the filter, and the qualifying agents are in increasing id order. |
| Recommendation.QualifyingComplete | NetSimulation/src/com/b14/model/recommendationstrategies/RecommendationStrategy.java:54-65 | Every agent other than the requester that passes the filter is qualifying. |
| Recommendation.ScanFromKept | NetSimulation/src/com/b14/model/recommendationstrategies/RecommendationStrategy.java:54-65 | The scan only appends. Every agent it adds comes at or after the scan position, is not the requester, and passes the strategy's filter. |
| Recommendation.RecommendScan | NetSimulation/src/com/b14/model/recommendationstrategies/RecommendationStrategy.java:51-91 | The result is an ordered subsequence of the agents of length at most size + 1. Every member is another agent that passes the strategy's filter. |
| Recommendation.RecommendScanComplete | NetSimulation/src/com/b14/model/recommendationstrategies/RecommendationStrategy.java:54-65 | When the scan stops short of its bound, it contains every agent that passes the filter. |
| Recommendation.PolarizeResults | NetSimulation/src/com/b14/model/recommendationstrategies/RecommendationStrategy.java:54-63 | Each POLARIZE pick is another agent that is not yet a neighbour, has belief within weighted openness, and passes `canTwoConnect`. |
| Recommendation.NeutralizeResults | NetSimulation/src/com/b14/model/recommendationstrategies/RecommendationStrategy.java:71-87 | Each NEUTRALIZE pick is another agent strictly closer to 0.5 than the requester and within 0.1 of its belief. |
| Recommendation.Recommend | NetSimulation/src/com/b14/model/recommendationstrategies/RecommendationStrategy.java:12-23 | Dispatch covers all three strategies. Results are agents other than the requester. It fails exactly for the random strategy with a positive size and no other agent. The scanning strategies return at most size + 1 agents, and the random one exactly max(size, 0). |
| Topology.CreateNodes | NetSimulation/src/com/b14/model/GraphPhysicsModel.java:76-84 | It creates exactly max(n, 0) agents with ids 0..n-1 and fresh state, and the next free id becomes n. |
| Topology.AddNodesFacts | NetSimulation/src/com/b14/model/GraphPhysicsModel.java:81-83 | The creation loop keeps earlier agents and appends agents with consecutive ids. |
| Topology.Walk | NetSimulation/src/com/b14/model/GraphPhysicsModel.java:114-128 | A selected agent lies at or after the start of the walk and within the agent list. |
| Topology.WalkSelects | NetSimulation/src/com/b14/model/GraphPhysicsModel.java:114-128 | The walk selects v exactly when the draw falls in v's slice of the running total of non-full degrees. Selection is proportional to degree, and full agents have an empty slice. |
| Topology.WalkFinds | NetSimulation/src/com/b14/model/GraphPhysicsModel.java:114-128 | A draw below the total always finds an agent with a non-empty slice, which is connected and not full, so the fallback index 0 is never used. |
| Topology.ConnectProportionate | NetSimulation/src/com/b14/model/GraphPhysicsModel.java:98-140 | Fewer than two agents fail at the seed edge and leave the graph empty. The only other failure is a zero total passed to `nextInt`. |
| Topology.NonFullPositive | NetSimulation/src/com/b14/model/GraphPhysicsModel.java:110-137 | While the tree grows and every limit is at least 2, the running total is positive, so `nextInt` never gets 0. |
| Topology.AttachStep | NetSimulation/src/com/b14/model/GraphPhysicsModel.java:112-137 | One attachment preserves the invariant: a simple graph whose earlier agents all have a parent, whose degree sum is 2(k-1), whose degrees are within limits, and whose running total is the sum of non-full degrees. |
| Topology.Attach | NetSimulation/src/com/b14/model/GraphPhysicsModel.java:111-138 | The attachment loop only ever fails with an illegal argument, keeps the agent count, and, started from a state satisfying the invariant with limits between 2 and the cap, never fails and ends with every agent attached within its limit, each later agent having an earlier first neighbour. |
| Topology.AttachPositive | NetSimulation/src/com/b14/model/GraphPhysicsModel.java:113 | While agents remain to be attached under the invariant, the bound passed to nextInt is positive. |
| Topology.AttachAdvances | NetSimulation/src/com/b14/model/GraphPhysicsModel.java:113-137 | One round of the loop takes a state satisfying the invariant, with k agents attached, to one with k + 1 attached. |
| Topology.AttachCounts | NetSimulation/src/com/b14/model/GraphPhysicsModel.java:129-136 | Joining a fresh agent to a non-full agent adds one edge (two to the degree sum) and changes the sum of non-full degrees by exactly the +2 / minus-limit adjustment the loop applies to totalConnections. |
| Topology.ParentsConnected | NetSimulation/src/com/b14/model/GraphPhysicsModel.java:130-131 | A symmetric graph in which each agent after 0 lists a smaller agent first is connected from agent 0. |
| Topology.ConnectProportionateTree | NetSimulation/src/com/b14/model/GraphPhysicsModel.java:98-140 | With at least two agents and limits between 2 and the cap, the result is a spanning tree: simple, connected from 0, with n-1 edges and every degree within its limit. |
| Topology.Pool | NetSimulation/src/com/b14/model/GraphPhysicsModel.java:146-152 | The pool holds exactly the agents of degree 1 whose limit exceeds 1, without repeats. |
| Topology.PickPair | NetSimulation/src/com/b14/model/GraphPhysicsModel.java:155-160 | The two picks are distinct pool positions. |
| Topology.DropPairFacts | NetSimulation/src/com/b14/model/GraphPhysicsModel.java:164-165 | Removing both picks leaves the pool without them, two shorter, and still without repeats. |
| Topology.PairUp | NetSimulation/src/com/b14/model/GraphPhysicsModel.java:154-166 | The pairing loop keeps the list count and loses no edge. It stops with fewer than two agents left, all of them from the original pool. |
| Topology.PairStep | NetSimulation/src/com/b14/model/GraphPhysicsModel.java:155-165 | One pairing keeps the graph simple and within limits, loses no edge, and keeps the pool invariant. |
| Topology.PairUpSimple | NetSimulation/src/com/b14/model/GraphPhysicsModel.java:154-166 | The pairing loop keeps the graph simple and within limits and only adds edges. |
| Topology.PairUpPairs | NetSimulation/src/com/b14/model/GraphPhysicsModel.java:154-166 | Every edge the pairing loop adds joins two pool members. |
| Topology.PairUpLeftover | NetSimulation/src/com/b14/model/GraphPhysicsModel.java:154-166 | The loop leaves exactly pool size mod 2 agents unpaired, so at most one. |
| Topology.CreateLoops | NetSimulation/src/com/b14/model/GraphPhysicsModel.java:145-167 | `createLoops` keeps one list per agent and loses no edge. |
| Topology.CreateLoopsFacts | NetSimulation/src/com/b14/model/GraphPhysicsModel.java:145-167 | `createLoops` keeps the graph simple and within limits, only adds edges, and only between dead ends of the original tree. |
| Topology.ConnectedKept | NetSimulation/src/com/b14/model/GraphPhysicsModel.java:162 | Adding edges never disconnects the graph. |
| Topology.SetupNetworkStructure | NetSimulation/src/com/b14/model/GraphPhysicsModel.java:86-92 | Run on agents without neighbours, as both callers do. Agents and limit are untouched. It fails with an index error exactly when there are fewer than two agents, and the only other failure is the zero total. |
| Topology.SetupConnected | NetSimulation/src/com/b14/model/GraphPhysicsModel.java:86-92 | Starting from no edges, with at least two agents and limits between 2 and the cap, set-up succeeds with a simple connected graph and every degree within the agent's limit. |
| Text.StripLeading | NetSimulation/src/com/b14/model/GraphModel.java:102 | It removes the longest whitespace prefix: the result is a suffix, what was removed is whitespace, and the result does not start with whitespace. |
| Text.StripTrailing | NetSimulation/src/com/b14/model/GraphModel.java:102 | It removes the longest whitespace suffix, symmetric to `StripLeading`. |
| Text.StripShape | NetSimulation/src/com/b14/model/GraphModel.java:102 | `strip` returns a slice between a whitespace prefix and a whitespace suffix, and the slice neither starts nor ends with whitespace. |
| Text.Strip | NetSimulation/src/com/b14/model/GraphModel.java:102 | `strip` never lengthens the line, and it leaves nothing exactly when the line is all whitespace. |
| Text.StripIdempotent | NetSimulation/src/com/b14/model/GraphModel.java:111 | Stripping twice is stripping once. |
| Text.PiecesJoin | NetSimulation/src/com/b14/model/GraphModel.java:111 | Cutting at every comma loses nothing: the pieces rejoined with commas are the input, and no piece holds a comma. |
| Text.NoCommaOnePiece | NetSimulation/src/com/b14/model/GraphModel.java:111 | A line without a comma is a single piece. |
| Text.Split | NetSimulation/src/com/b14/model/GraphModel.java:111 | No piece holds a comma, and a line with a comma never yields a trailing empty piece. |
| Text.DropTrailingEmpty | NetSimulation/src/com/b14/model/GraphModel.java:111 | It removes exactly the trailing empty pieces: the result is a prefix, and what was dropped is empty. |
| Text.SplitJoin | NetSimulation/src/com/b14/model/GraphModel.java:111 | `split(",")` drops only empty trailing pieces: its result, padded with empty pieces, rejoins to the line. |
| Engine.StartRandom | NetSimulation/src/com/b14/model/GraphModel.java:49-53 | Epoch 0, exactly max(n, 0) agents with ids 0..n-1, next free id n, settings kept. Set-up fails with an index error exactly when n < 2; any other failure is the illegal argument of a zero total. |
| Engine.StartRandomConnected | NetSimulation/src/com/b14/model/GraphPhysicsModel.java:64-68 | With n >= 2 and drawn limits between 2 and the cap, a random start succeeds with a well-formed, simple, connected network within the limit. |
| Engine.SetupFresh | NetSimulation/src/com/b14/model/GraphPhysicsModel.java:64-68 | Set-up on freshly created agents whose limits lie between 2 and the cap succeeds with a well-formed, simple, connected network within the limit. |
| Engine.ReceiveTurn | NetSimulation/src/com/b14/model/GraphModel.java:60-63 | One agent's turn keeps the network well formed, with the same agent count and limit. It fails exactly when the random strategy with a positive size finds no other agent. |
| Engine.ReceiveTurnConfidence | NetSimulation/src/com/b14/model/GraphModel.java:60-63 | Because the set is cleared right before receiving, the agent's confidence set after its turn is exactly the candidates it accepted this epoch. |
| Engine.ReceiveTurnFacts | NetSimulation/src/com/b14/model/GraphModel.java:60-63 | A turn changes no other agent's record, keeps a simple graph simple, and raises no degree above the larger of its old value and the limit. |
| Engine.ReceiveFrom | NetSimulation/src/com/b14/model/GraphModel.java:59-69 | The message phase keeps the network well formed. It fails, for the random strategy's endless loop, exactly when a turn is still due, the strategy is random, the size is positive, and the network holds one agent. |
| Engine.ReceiveFromBounded | NetSimulation/src/com/b14/model/GraphModel.java:60-64 | The message phase keeps a simple graph simple and within the limit. |
| Engine.FraternizeFrom | NetSimulation/src/com/b14/model/GraphModel.java:71-75 | The fraternize phase keeps the network well formed. |
| Engine.FraternizeBounded | NetSimulation/src/com/b14/model/Node.java:155-172 | One agent's `fraternize` keeps a well-formed, simple network within the limit. |
| Engine.FraternizeFromBounded | NetSimulation/src/com/b14/model/GraphModel.java:71-75 | The fraternize phase keeps a simple graph simple and within the limit. |
| Engine.FraternizeFromSkipsFull | NetSimulation/src/com/b14/model/GraphModel.java:71-75 | An agent at or above the limit keeps its record and its neighbours through the rest of the phase. |
| Engine.SimulateSpreadStep | NetSimulation/src/com/b14/model/GraphModel.java:58-80 | A completed epoch adds exactly 1 to the epoch and keeps settings, id counter, agent count, limit and well-formedness. The step fails exactly when the strategy is random, the size is positive and there is a single agent. |
| Engine.SpreadStepBounded | NetSimulation/src/com/b14/model/GraphModel.java:58-80 | A simple network within the connection limit stays so through every epoch that succeeds. |
| Engine.SpreadStepFullAgents | NetSimulation/src/com/b14/model/GraphModel.java:70-75 | Fraternizing comes only after every agent has received its messages. Once that phase succeeds, an agent at the limit ends the epoch with the record and neighbours the message phase left, and the step as a whole succeeds. |
| Engine.UpdateDissonances | NetSimulation/src/com/b14/model/GraphModel.java:86-90 | Every agent's dissonance rises by the same d, and nothing else in the model changes. |
| Engine.UpdateDissonancesAdd | NetSimulation/src/com/b14/model/GraphModel.java:86-90 | Two updates compose to one update by the sum, and an update by 0 is the identity. |
| Engine.Trim | NetSimulation/src/com/b14/model/GraphModel.java:155-158 | The loop ends with the agent within the given limit. It only removes edges, no list grows, and a simple graph stays simple. |
| Engine.TrimFrom | NetSimulation/src/com/b14/model/GraphModel.java:153-159 | After the loops, every agent handled is within its limit, no edge was added, and a simple graph stays simple. |
| Engine.TrimFromWithin | NetSimulation/src/com/b14/model/GraphModel.java:153-159 | When every agent is already within its limit, the loops change nothing. |
| Engine.SetConnectionLimitOnNodes | NetSimulation/src/com/b14/model/GraphModel.java:150-161 | The global limit becomes the new value. Every agent ends within its INDIVIDUAL limit, no edge is added, and simplicity and the rest of the model are preserved. |
| Engine.SetConnectionLimitIdempotent | NetSimulation/src/com/b14/model/GraphModel.java:150-161 | Enforcing the limits again, with any random numbers, changes nothing. |
| Engine.SetConnectionLimitWithinCap | NetSimulation/src/com/b14/model/GraphModel.java:150-161 | Every degree ends within the new global limit when no agent's individual limit exceeds it. |
| Engine.LoadRows | NetSimulation/src/com/b14/model/GraphModel.java:108-116 | A failure names a data line. The id counter advances once per created agent, plus once for the failing line. |
| Engine.ParseRow | NetSimulation/src/com/b14/model/GraphModel.java:111-114 | A row with fewer than three comma-separated fields is rejected. An accepted row's three values are what `parseFloat` gives for its first three fields, after stripping and splitting. |
| Engine.ParseRowStripped | NetSimulation/src/com/b14/model/GraphModel.java:111 | Whitespace around a row does not change how it parses. |
| Engine.LoadRowsOk | NetSimulation/src/com/b14/model/GraphModel.java:108-116 | The row loop succeeds exactly when every remaining line parses, and it then creates one agent per line. |
| Engine.LoadRowsIds | NetSimulation/src/com/b14/model/GraphModel.java:113 | Agents created by the row loop carry consecutive ids. |
| Engine.LoadRowsBadLine | NetSimulation/src/com/b14/model/GraphModel.java:108-116 | The first line that does not parse stops the loop and is reported, with one agent per earlier line. |
| Engine.SetAgentsFromFile | NetSimulation/src/com/b14/model/GraphModel.java:95-120 | The epoch is always 0. An empty file, or a first line that is not `neuroticism,extraversion,openness` after stripping, is rejected with the agent list already cleared. Those are the only header faults. |
| Engine.LoadAgents | NetSimulation/src/com/b14/model/GraphModel.java:108-119 | After the header, the load either stops at a malformed line or ends in the network set-up. It never reports a header fault, keeps the settings and the cap, has one adjacency list per agent, and sets the next free id to the agent count, plus one after a malformed line. |
| Engine.LoadAgentsAllRows | NetSimulation/src/com/b14/model/GraphModel.java:108-119 | When every data line parses, there is one agent per data line, numbered 0, 1, ... in line order. Set-up then fails only for fewer than two agents or a zero total, and it gives a connected simple graph when the limits fit. |
| Engine.SetAgentsFromFileLoads | NetSimulation/src/com/b14/model/GraphModel.java:95-120 | With a good header and good lines, there is one agent per data line with ids 0, 1, ... in line order. Set-up then fails only for fewer than two agents or a zero total, and succeeds with a connected simple graph when the limits fit. |
| Engine.SetAgentsFromFileBadLine | NetSimulation/src/com/b14/model/GraphModel.java:108-116 | A bad line stops the load there with the fault naming it. The agents of the earlier lines stay, unconnected, and the id counter has already counted the bad line. |

## Left out

- Physics, node placement, colours and hit testing: `physicsUpdate`, the force functions, `nodeSpacingSetup`, `findPositionForUnlinkedNodes`, `getColorBelief`, `getColorDissonance`, `pointInNode`. These are floating-point geometry with no bearing on the graph or the beliefs.
- `Node.updateDissonance` uses a logarithm and Gaussian noise. It is an opaque parameter `update: Agent -> real`, applied to the agent record after both counters were incremented.
- Float arithmetic: beliefs, openness and dissonance are exact reals, so `float` rounding (for instance in `updateBelief`'s weighted sum) is not modelled.
- `Float.parseFloat` is an opaque parameter `parse: string -> Option<real>`.
- The four-argument `Node` constructor that the loader calls is not part of this model. It is a parameter `traitsFrom`, and so is the trait drawing of `new Node(id)`, as `traits`.
- `getIndividualConnectionLimit` and `getWeightedOpenness` are not defined in the `Node` class the rest of the code sees. They are per-agent fields supplied by the caller.
- `setReweightedOpenness`, `getConnectionLimit` and the plain getters are not modelled: nothing in the core depends on them beyond field reads.
- Randomness: `Random` objects with fixed seeds are oracle parameters. The Java draws `connectProportionate`, `createLoops` and the trimming loop of `setConnectionLimitOnNodes` from the single `GraphPhysicsModel.random` (GraphPhysicsModel.java:17). The model gives each its own oracle (`draw`, `pick`, and the trimming `draw`), and it does not tie the separate streams of `Node`, `GraphPhysicsModel` and `RecommendationStrategy` together either. Every property is proved for all oracles, so it holds for the one sequence the shared stream produces.
- Rejection loops: the redraw until a different element comes up is a direct choice among the other elements. The model does not count how many draws were discarded.
- File I/O: the file is given as its sequence of lines, as `readLine` returns them. An empty file stands for the null first line, which the Java dereferences (`MissingHeader`).
- Data logging, property-change events, the UI and the frame-rate loop with its lock are left out.
- The superseded prototype classes and the Python plotting scripts are left out.
- `OperationNotSupportedException`: the `default` branch of `recommend` cannot be reached with the three-valued enum, so the abort path of `simulateSpreadStep` is not modelled. The infinite loop of the random strategy when no other agent exists is modelled instead, as the `NoOtherAgent` fault.
- The `assert numNodes > 5` in `createNodes` is off unless assertions are enabled. `CreateNodes` accepts any count, and fewer than two agents fail in `connectProportionate`.
- The `int` epoch counter is unbounded; 32-bit overflow after 2^31 epochs is not modelled.
- Topology.ConnectProportionateTree: the spanning-tree result is proved only when every individual limit lies between 2 and the global limit. With a limit below 2, the running total can reach 0 and the Java throws; that case is modelled as the `IllegalArgument` fault but no shape is claimed for it.
- Engine.SpreadStepBounded: the epoch is proved to keep the graph simple and within the limit, but not to keep it connected. Pruning may disconnect it, as the source allows.
- Text.StripLeading: whitespace is the ASCII subset of `Character.isWhitespace` (space, tab, line feed, vertical tab, form feed, carriage return, U+001C..U+001F). Unicode space separators are not treated as whitespace.
- Text.StripTrailing: uses the same ASCII-only whitespace test as `StripLeading`, so trailing Unicode space separators such as U+2003 are kept.
- Text.Strip: built from `StripLeading` and `StripTrailing`, so it removes only the ASCII subset of `Character.isWhitespace` at either end.
- Engine.SetAgentsFromFile: the header is stripped with `Text.Strip`, so a header line padded with non-ASCII whitespace such as U+2003 is rejected as a header fault, where the Java strips it and accepts the file.
- `ConsiderAll`, `ScanFrom`, `Keeps`, `GetCanConnect` and `CanTwoConnect` are definitions without a contract of their own. Their meaning is stated by the lemmas in the table: `ConsiderAllAgent`, `ConsiderAllNewEdge` and `ConsiderAllAttempts`; `ScanFromKept` and `ScanIsTake`; `PolarizeResults` and `NeutralizeResults`; `CannotConnectNoEdge` and `CanTwoConnectBoth`.
- Engine.SetConnectionLimitOnNodes: `getIndividualConnectionLimit`, which the trimming loop reads (GraphModel.java:155) right after `setConnectionLimit(newLimit)` (GraphModel.java:151), is not part of this model. The model reads each agent's stored `individualLimit` field and leaves it unchanged. If the real individual limit is derived from the global limit, the source trims to the value computed from `newLimit` while the model trims to the stored one. So the model does not promise a bound in terms of `newLimit`; `SetConnectionLimitWithinCap` gives one when every stored individual limit is at most `newLimit`.

=== FILE: agent.dfy ===
/**
  Per-agent state and update rules of the opinion-diffusion simulation
  (Node.java): belief pooling, the message-acceptance and pruning pass,
  friend-of-friend edge formation, and the small setters the engine uses.
 */
module Agents {
  import opened Graph

  /** `dissonanceDecrease`: added once per pruned contact and per accepted friend of a friend. */
  const DissonanceDecrease: real := -0.05

  /**
    One agent. `individualLimit` and `weightedOpenness` are the values of
    `getIndividualConnectionLimit()` and `getWeightedOpenness()`, which the
    engine and the strategies read from each agent.
   */
  datatype Agent = Agent(
    id: nat,
    belief: real,
    openness: real,
    dissonanceThreshold: real,
    currentDissonance: real,
    confidenceSet: seq<nat>,
    numberOfContacts: int,
    numberOfConflicts: int,
    individualLimit: nat,
    weightedOpenness: real)

  /** The agents (agent `i` has id `i`), their adjacency and the global connection limit. */
  datatype Net = Net(agents: seq<Agent>, adj: Adj, cap: int)

  predicate IdsInRange(ids: seq<nat>, n: nat) {
    forall j :: 0 <= j < |ids| ==> ids[j] < n
  }

  predicate ValidNet(net: Net) {
    && |net.agents| == |net.adj|
    && InRange(net.adj)
    && (forall i :: 0 <= i < |net.agents| ==> net.agents[i].id == i)
    && (forall i :: 0 <= i < |net.agents| ==> IdsInRange(net.agents[i].confidenceSet, |net.agents|))
  }

  /** The fields no diffusion step changes: identity and personality. */
  predicate SameTraits(a: Agent, b: Agent) {
    && a.id == b.id
    && a.openness == b.openness
    && a.dissonanceThreshold == b.dissonanceThreshold
    && a.individualLimit == b.individualLimit
    && a.weightedOpenness == b.weightedOpenness
  }

  function Abs(x: real): real {
    if x < 0.0 then -x else x
  }

  /** A message is accepted when the beliefs differ by less than the agent's openness. */
  predicate Accepts(me: Agent, other: real) {
    Abs(other - me.belief) < me.openness
  }

  // ---------------------------------------------------------------------
  // Belief pooling (updateBelief)

  function Sum(xs: seq<real>): real {
    if |xs| == 0 then 0.0 else xs[0] + Sum(xs[1..])
  }

  function MinOf(xs: seq<real>): real
    requires |xs| > 0
  {
    if |xs| == 1 then xs[0]
    else var m := MinOf(xs[1..]); if xs[0] < m then xs[0] else m
  }

  function MaxOf(xs: seq<real>): real
    requires |xs| > 0
  {
    if |xs| == 1 then xs[0]
    else var m := MaxOf(xs[1..]); if xs[0] > m then xs[0] else m
  }

  /** `m` is the mean of `pool`: times the pool size it gives the sum. */
  predicate IsMean(m: real, pool: seq<real>) {
    m * (|pool| as real) == Sum(pool)
  }

  lemma {:induction false} SumBetween(xs: seq<real>)
    requires |xs| > 0
    ensures |xs| as real * MinOf(xs) <= Sum(xs) <= |xs| as real * MaxOf(xs)
  {
    if |xs| > 1 {
      var rest := xs[1..];
      SumBetween(rest);
      var k := |rest| as real;
      var lo, hi := MinOf(xs), MaxOf(xs);
      assert lo <= xs[0] <= hi;
      assert lo <= MinOf(rest) && MaxOf(rest) <= hi;
      assert Sum(xs) == xs[0] + Sum(rest);
      BoundsStep(k, |xs| as real, lo, hi, xs[0], MinOf(rest), MaxOf(rest), Sum(rest));
    } else {
      assert |xs[1..]| == 0 && |xs| as real == 1.0;
      assert Sum(xs) == xs[0] && MinOf(xs) == xs[0] && MaxOf(xs) == xs[0];
    }
  }

  /** One more value between `lo` and `hi` keeps a sum of k values between k * lo and k * hi. */
  lemma BoundsStep(k: real, n: real, lo: real, hi: real, a: real, m: real, mx: real, t: real)
    requires n == k + 1.0 && k >= 0.0 && lo <= a <= hi && lo <= m && mx <= hi && k * m <= t <= k * mx
    ensures n * lo <= a + t <= n * hi
  {
    assert k * lo <= k * m && k * mx <= k * hi;
    assert n * lo == k * lo + lo && n * hi == k * hi + hi;
  }

  /**
    `updateBelief`: the new belief is the unweighted mean of the agent's own
    belief and the beliefs of its confidence set. It never leaves the range
    of the pooled values and is unchanged when nothing was accepted.
   */
  function UpdateBelief(own: real, peers: seq<real>): (r: real)
    ensures IsMean(r, [own] + peers)
    ensures MinOf([own] + peers) <= r <= MaxOf([own] + peers)
    ensures |peers| == 0 ==> r == own
  {
    var pool := [own] + peers;
    assert Sum(pool) == own + Sum(peers) by {
      assert pool[0] == own && pool[1..] == peers;
    }
    MeanBetween(pool);
    Sum(pool) / (|pool| as real)
  }

  /** The mean of a non-empty pool lies between its least and greatest value. */
  lemma MeanBetween(pool: seq<real>)
    requires |pool| > 0
    ensures var k := |pool| as real;
      && (Sum(pool) / k) * k == Sum(pool)
      && MinOf(pool) <= Sum(pool) / k <= MaxOf(pool)
  {
    var k := |pool| as real;
    var r := Sum(pool) / k;
    assert r * k == Sum(pool);
    SumBetween(pool);
    assert MinOf(pool) * k <= r * k <= MaxOf(pool) * k;
    Unscale(MinOf(pool), r, MaxOf(pool), k);
  }

  /** Dividing both bounds of a positive multiple. */
  lemma Unscale(lo: real, x: real, hi: real, k: real)
    requires k > 0.0 && lo * k <= x * k <= hi * k
    ensures lo <= x <= hi
  {
  }

  /** The beliefs of the listed agents, in list order. */
  function Beliefs(agents: seq<Agent>, ids: seq<nat>): (bs: seq<real>)
    requires IdsInRange(ids, |agents|)
    ensures |bs| == |ids|
    ensures forall j :: 0 <= j < |ids| ==> bs[j] == agents[ids[j]].belief
  {
    seq(|ids|, j requires 0 <= j < |ids| => agents[ids[j]].belief)
  }

  // ---------------------------------------------------------------------
  // Message acceptance and pruning (receiveMessages)

  /** State threaded through the candidate loop of `receiveMessages`. */
  datatype Pass = Pass(adj: Adj, me: Agent, pruned: seq<nat>)

  /**
    One candidate `c` of agent `s`. Accepted: it joins the confidence set and
    an edge to it is attempted. Rejected: both counters grow, `c` is marked
    for pruning when the agent's dissonance is already above its threshold,
    and `updateDissonance` (supplied as `update`) recomputes the dissonance.
   */
  function Consider(agents: seq<Agent>, cap: int, s: nat, st: Pass, c: nat,
                    update: Agent -> real): (r: Pass)
    requires s < |st.adj| && c < |st.adj| && c < |agents|
    ensures |r.adj| == |st.adj|
    ensures Accepts(st.me, agents[c].belief) ==>
      && r.me.confidenceSet == st.me.confidenceSet + [c]
      && (c in r.adj[s] || |st.adj[s]| >= cap || |st.adj[c]| >= cap)
      && r.pruned == st.pruned
    ensures !Accepts(st.me, agents[c].belief) ==>
      && r.adj == st.adj && r.me.confidenceSet == st.me.confidenceSet
      && r.me.numberOfConflicts == st.me.numberOfConflicts + 1
      && r.me.numberOfContacts == st.me.numberOfContacts + 1
  {
    var me := st.me;
    if Accepts(me, agents[c].belief) then
      Pass(AddNeighbour(st.adj, cap, s, c), me.(confidenceSet := me.confidenceSet + [c]), st.pruned)
    else
      var pruned := if me.currentDissonance > me.dissonanceThreshold then st.pruned + [c] else st.pruned;
      var counted := me.(numberOfConflicts := me.numberOfConflicts + 1,
                         numberOfContacts := me.numberOfContacts + 1);
      Pass(st.adj, counted.(currentDissonance := update(counted)), pruned)
  }

  function ConsiderAll(agents: seq<Agent>, cap: int, s: nat, st: Pass, cands: seq<nat>,
                       update: Agent -> real): (r: Pass)
    requires s < |st.adj| && |agents| == |st.adj| && IdsInRange(cands, |agents|)
    ensures |r.adj| == |st.adj|
    decreases |cands|
  {
    if |cands| == 0 then st
    else ConsiderAll(agents, cap, s, Consider(agents, cap, s, st, cands[0], update), cands[1..], update)
  }

  /** The pruning loop: every marked contact is removed and lowers the dissonance. */
  function Prune(adj: Adj, s: nat, me: Agent, pruned: seq<nat>): (r: (Adj, Agent))
    requires s < |adj| && IdsInRange(pruned, |adj|)
    ensures |r.0| == |adj|
    ensures r.1 == me.(currentDissonance := me.currentDissonance + |pruned| as real * DissonanceDecrease)
    ensures Simple(adj) ==> Simple(r.0) && forall p :: p in pruned ==> p !in r.0[s] && s !in r.0[p]
    ensures Simple(adj) ==> forall x, y :: 0 <= x < |adj| && y in r.0[x] ==> y in adj[x]
    decreases |pruned|
  {
    if |pruned| == 0 then (adj, me)
    else
      var adj1 := RemoveNeighbour(adj, s, pruned[0]);
      var me1 := me.(currentDissonance := me.currentDissonance + DissonanceDecrease);
      var r := Prune(adj1, s, me1, pruned[1..]);
      assert forall p :: p in pruned ==> p == pruned[0] || p in pruned[1..];
      if Simple(adj) then
        RemoveNeighbourSimple(adj, s, pruned[0]);
        RemoveNeighbourEdges(adj, s, pruned[0]);
        r
      else
        r
  }

  /** The candidates of `s` in loop order: its neighbours, then the recommended agents. */
  function Candidates(net: Net, s: nat, recommended: seq<nat>): seq<nat>
    requires s < |net.adj|
  {
    net.adj[s] + recommended
  }

  /** Reference definition: the candidates whose belief is within openness of `me`. */
  function Accepted(agents: seq<Agent>, me: Agent, cands: seq<nat>): (acc: seq<nat>)
    requires IdsInRange(cands, |agents|)
    ensures |acc| <= |cands|
    decreases |cands|
  {
    if |cands| == 0 then []
    else (if Accepts(me, agents[cands[0]].belief) then [cands[0]] else [])
         + Accepted(agents, me, cands[1..])
  }

  function Scanned(net: Net, s: nat, recommended: seq<nat>, update: Agent -> real): Pass
    requires ValidNet(net) && s < |net.agents| && IdsInRange(recommended, |net.agents|)
  {
    var cands := Candidates(net, s, recommended);
    assert IdsInRange(cands, |net.agents|) by {
      assert forall j :: 0 <= j < |net.adj[s]| ==> cands[j] == net.adj[s][j];
    }
    ConsiderAll(net.agents, net.cap, s, Pass(net.adj, net.agents[s], []), cands, update)
  }

  /**
    `receiveMessages(recommended)` of agent `s`: the acceptance pass over
    the candidates, the pruning loop, then `updateBelief` on the resulting
    confidence set. Only agent `s` and the adjacency change.
   */
  function ReceiveMessages(net: Net, s: nat, recommended: seq<nat>, update: Agent -> real): (r: Net)
    requires ValidNet(net) && s < |net.agents| && IdsInRange(recommended, |net.agents|)
    ensures |r.agents| == |net.agents| && r.cap == net.cap
    ensures forall i :: 0 <= i < |net.agents| && i != s ==> r.agents[i] == net.agents[i]
  {
    var st := Scanned(net, s, recommended, update);
    ScannedFacts(net, s, recommended, update);
    var (adj', me') := Prune(st.adj, s, st.me, st.pruned);
    var me'' := me'.(belief := UpdateBelief(me'.belief, Beliefs(net.agents, me'.confidenceSet)));
    net.(agents := net.agents[s := me''], adj := adj')
  }

  /** The ids a pass state refers to are all agents. */
  predicate PassInRange(st: Pass, n: nat) {
    |st.adj| == n && InRange(st.adj) && IdsInRange(st.me.confidenceSet, n) && IdsInRange(st.pruned, n)
  }

  /** The loop state after one accepted or rejected candidate. */
  lemma ConsiderFacts(agents: seq<Agent>, cap: int, s: nat, st: Pass, c: nat, update: Agent -> real)
    requires s < |agents| && c < |agents| && PassInRange(st, |agents|)
    ensures var r := Consider(agents, cap, s, st, c, update);
      var acc := Accepts(st.me, agents[c].belief);
      && SameTraits(r.me, st.me) && r.me.belief == st.me.belief
      && r.me.confidenceSet == st.me.confidenceSet + (if acc then [c] else [])
      && r.me.numberOfConflicts == st.me.numberOfConflicts + (if acc then 0 else 1)
      && r.me.numberOfContacts == st.me.numberOfContacts + (if acc then 0 else 1)
      && (forall p :: p in r.pruned ==> p in st.pruned || (p == c && !acc))
      && PassInRange(r, |agents|)
      && EdgesKept(st.adj, r.adj)
      && (forall x :: 0 <= x < |st.adj| ==> |st.adj[x]| <= |r.adj[x]|)
      && (forall x, y :: 0 <= x < |st.adj| && y in r.adj[x] && y !in st.adj[x] ==>
            acc && ((x == s && y == c) || (x == c && y == s)))
      && (Simple(st.adj) && c != s ==> Simple(r.adj))
  {
    ConsiderEdges(agents, cap, s, st, c, update);
  }

  /** The graph side of one candidate: an accepted one may add the edge {s, c} and nothing else changes. */
  lemma ConsiderEdges(agents: seq<Agent>, cap: int, s: nat, st: Pass, c: nat, update: Agent -> real)
    requires s < |agents| && c < |agents| && PassInRange(st, |agents|)
    ensures var r := Consider(agents, cap, s, st, c, update);
      var acc := Accepts(st.me, agents[c].belief);
      && InRange(r.adj)
      && EdgesKept(st.adj, r.adj)
      && (forall x :: 0 <= x < |st.adj| ==> |st.adj[x]| <= |r.adj[x]|)
      && (forall x, y :: 0 <= x < |st.adj| && y in r.adj[x] && y !in st.adj[x] ==>
            acc && ((x == s && y == c) || (x == c && y == s)))
      && (Simple(st.adj) && c != s ==> Simple(r.adj))
  {
    var r := Consider(agents, cap, s, st, c, update);
    if !Accepts(st.me, agents[c].belief) || c in st.adj[s] || !CanTwoConnect(st.adj, cap, s, c) {
      assert r.adj == st.adj;
    } else {
      if c != s {
        assert r.adj[s] == st.adj[s] + [c] && r.adj[c] == st.adj[c] + [s];
        if Simple(st.adj) {
          AddNeighbourSimple(st.adj, cap, s, c);
        }
      } else {
        assert r.adj[s] == st.adj[s] + [s, s];
      }
      assert InRange(r.adj) by {
        forall x, j | 0 <= x < |r.adj| && 0 <= j < |r.adj[x]|
          ensures r.adj[x][j] < |r.adj|
        {
          if x == s || x == c {
            if r.adj[x] != st.adj[x] {
              assert r.adj[x][j] in st.adj[x] || r.adj[x][j] == s || r.adj[x][j] == c;
            }
          }
        }
      }
    }
  }

  /**
    The whole acceptance pass, as seen by the agent: the confidence set grows
    by exactly the accepted candidates and both counters grow by the number
    of rejected ones.
   */
  lemma {:induction false} ConsiderAllAgent(agents: seq<Agent>, cap: int, s: nat, st: Pass,
                                            cands: seq<nat>, update: Agent -> real)
    requires s < |agents| && IdsInRange(cands, |agents|) && PassInRange(st, |agents|)
    ensures var r := ConsiderAll(agents, cap, s, st, cands, update);
      var acc := Accepted(agents, st.me, cands);
      && SameTraits(r.me, st.me) && r.me.belief == st.me.belief
      && r.me.confidenceSet == st.me.confidenceSet + acc
      && r.me.numberOfConflicts == st.me.numberOfConflicts + (|cands| - |acc|)
      && r.me.numberOfContacts == st.me.numberOfContacts + (|cands| - |acc|)
      && PassInRange(r, |agents|)
    decreases |cands|
  {
    if |cands| > 0 {
      var st1 := Consider(agents, cap, s, st, cands[0], update);
      ConsiderFacts(agents, cap, s, st, cands[0], update);
      ConsiderAllAgent(agents, cap, s, st1, cands[1..], update);
      AcceptedSameBeliefs(agents, agents, st1.me, st.me, cands[1..]);
      var rest := Accepted(agents, st.me, cands[1..]);
      var r := ConsiderAll(agents, cap, s, st1, cands[1..], update);
      if Accepts(st.me, agents[cands[0]].belief) {
        assert Accepted(agents, st.me, cands) == [cands[0]] + rest;
        assert r.me.confidenceSet == st.me.confidenceSet + ([cands[0]] + rest);
        assert st1.me.numberOfConflicts == st.me.numberOfConflicts;
        assert st1.me.numberOfContacts == st.me.numberOfContacts;
      } else {
        assert Accepted(agents, st.me, cands) == rest;
        assert st1.me.numberOfConflicts == st.me.numberOfConflicts + 1;
        assert st1.me.numberOfContacts == st.me.numberOfContacts + 1;
      }
    }
  }

  /** Only rejected candidates are ever marked for pruning. */
  lemma {:induction false} ConsiderAllPruned(agents: seq<Agent>, cap: int, s: nat, st: Pass,
                                             cands: seq<nat>, update: Agent -> real)
    requires s < |agents| && IdsInRange(cands, |agents|) && PassInRange(st, |agents|)
    ensures var r := ConsiderAll(agents, cap, s, st, cands, update);
      forall p :: p in r.pruned ==> p in st.pruned || (p in cands && !Accepts(st.me, agents[p].belief))
    decreases |cands|
  {
    if |cands| > 0 {
      var st1 := Consider(agents, cap, s, st, cands[0], update);
      ConsiderFacts(agents, cap, s, st, cands[0], update);
      ConsiderAllPruned(agents, cap, s, st1, cands[1..], update);
      assert forall p :: p in cands[1..] ==> p in cands;
    }
  }

  /**
    The acceptance pass raises no degree above the larger of its old value
    and the connection limit, when `s` is not its own candidate.
   */
  lemma {:induction false} ConsiderAllDegrees(agents: seq<Agent>, cap: int, s: nat, st: Pass,
                                              cands: seq<nat>, update: Agent -> real)
    requires s < |agents| && IdsInRange(cands, |agents|) && PassInRange(st, |agents|)
    requires s !in cands
    ensures var r := ConsiderAll(agents, cap, s, st, cands, update);
      forall x :: 0 <= x < |st.adj| ==> |r.adj[x]| <= Max(|st.adj[x]|, cap)
    decreases |cands|
  {
    if |cands| > 0 {
      var st1 := Consider(agents, cap, s, st, cands[0], update);
      ConsiderFacts(agents, cap, s, st, cands[0], update);
      assert s !in cands[1..];
      ConsiderAllDegrees(agents, cap, s, st1, cands[1..], update);
      assert forall x :: 0 <= x < |st.adj| ==> |st1.adj[x]| <= Max(|st.adj[x]|, cap);
    }
  }

  /** The acceptance pass keeps a simple graph simple when `s` is not its own candidate. */
  lemma {:induction false} ConsiderAllSimple(agents: seq<Agent>, cap: int, s: nat, st: Pass,
                                             cands: seq<nat>, update: Agent -> real)
    requires s < |agents| && IdsInRange(cands, |agents|) && PassInRange(st, |agents|)
    requires Simple(st.adj) && s !in cands
    ensures var r := ConsiderAll(agents, cap, s, st, cands, update);
      Simple(r.adj) && EdgesKept(st.adj, r.adj)
    decreases |cands|
  {
    if |cands| > 0 {
      var st1 := Consider(agents, cap, s, st, cands[0], update);
      ConsiderFacts(agents, cap, s, st, cands[0], update);
      assert s !in cands[1..];
      ConsiderAllSimple(agents, cap, s, st1, cands[1..], update);
    }
  }

  /** The acceptance pass only adds edges: every list keeps its members and its length never drops. */
  lemma {:induction false} ConsiderAllGrows(agents: seq<Agent>, cap: int, s: nat, st: Pass,
                                            cands: seq<nat>, update: Agent -> real)
    requires s < |agents| && IdsInRange(cands, |agents|) && PassInRange(st, |agents|)
    ensures var r := ConsiderAll(agents, cap, s, st, cands, update);
      && EdgesKept(st.adj, r.adj)
      && (forall x :: 0 <= x < |st.adj| ==> |st.adj[x]| <= |r.adj[x]|)
    decreases |cands|
  {
    if |cands| > 0 {
      var st1 := Consider(agents, cap, s, st, cands[0], update);
      ConsiderFacts(agents, cap, s, st, cands[0], update);
      ConsiderAllGrows(agents, cap, s, st1, cands[1..], update);
    }
  }

  /**
    Every edge the acceptance pass adds joins `s` and a candidate it
    accepted; a rejected candidate never gains an edge.
   */
  lemma {:induction false} ConsiderAllNewEdge(agents: seq<Agent>, cap: int, s: nat, st: Pass,
                                              cands: seq<nat>, update: Agent -> real, x: nat, y: nat)
    requires s < |agents| && IdsInRange(cands, |agents|) && PassInRange(st, |agents|)
    requires x < |agents| && y in ConsiderAll(agents, cap, s, st, cands, update).adj[x] && y !in st.adj[x]
    ensures (x == s && y in Accepted(agents, st.me, cands)) || (y == s && x in Accepted(agents, st.me, cands))
    decreases |cands|
  {
    var st1 := Consider(agents, cap, s, st, cands[0], update);
    ConsiderFacts(agents, cap, s, st, cands[0], update);
    AcceptedSameBeliefs(agents, agents, st1.me, st.me, cands[1..]);
    if y !in st1.adj[x] {
      ConsiderAllNewEdge(agents, cap, s, st1, cands[1..], update, x, y);
    }
  }

  /**
    Every accepted candidate ends the pass as a neighbour of `s`, unless
    `s` or the candidate has reached the connection limit.
   */
  lemma {:induction false} ConsiderAllAttempts(agents: seq<Agent>, cap: int, s: nat, st: Pass,
                                               cands: seq<nat>, update: Agent -> real, c: nat)
    requires s < |agents| && IdsInRange(cands, |agents|) && PassInRange(st, |agents|)
    requires c < |agents| && c in Accepted(agents, st.me, cands)
    ensures var r := ConsiderAll(agents, cap, s, st, cands, update);
      c in r.adj[s] || |r.adj[s]| >= cap || |r.adj[c]| >= cap
    decreases |cands|
  {
    var st1 := Consider(agents, cap, s, st, cands[0], update);
    ConsiderFacts(agents, cap, s, st, cands[0], update);
    AcceptedSameBeliefs(agents, agents, st1.me, st.me, cands[1..]);
    ConsiderAllGrows(agents, cap, s, st1, cands[1..], update);
    if c in Accepted(agents, st.me, cands[1..]) {
      ConsiderAllAttempts(agents, cap, s, st1, cands[1..], update, c);
    } else {
      assert c == cands[0] && Accepts(st.me, agents[c].belief);
    }
  }

  /** Membership in the accepted list: a candidate within openness of `me`. */
  lemma {:induction false} AcceptedMembers(agents: seq<Agent>, me: Agent, cands: seq<nat>, c: nat)
    requires IdsInRange(cands, |agents|)
    ensures c in Accepted(agents, me, cands) <==> c in cands && Accepts(me, agents[c].belief)
    decreases |cands|
  {
    if |cands| > 0 {
      AcceptedMembers(agents, me, cands[1..], c);
      assert c in cands <==> c == cands[0] || c in cands[1..];
    }
  }

  /** Acceptance looks only at the beliefs of the candidates and at the belief and openness of the receiver. */
  lemma {:induction false} AcceptedSameBeliefs(agents: seq<Agent>, agents': seq<Agent>, me: Agent, me': Agent, cands: seq<nat>)
    requires |agents| == |agents'| && IdsInRange(cands, |agents|)
    requires forall i :: 0 <= i < |agents| ==> agents[i].belief == agents'[i].belief
    requires me.belief == me'.belief && me.openness == me'.openness
    ensures Accepted(agents, me, cands) == Accepted(agents', me', cands)
    decreases |cands|
  {
    if |cands| > 0 {
      AcceptedSameBeliefs(agents, agents', me, me', cands[1..]);
    }
  }

  lemma ScannedFacts(net: Net, s: nat, recommended: seq<nat>, update: Agent -> real)
    requires ValidNet(net) && s < |net.agents| && IdsInRange(recommended, |net.agents|)
    ensures var st := Scanned(net, s, recommended, update);
      var cands := Candidates(net, s, recommended);
      var acc := Accepted(net.agents, net.agents[s], cands);
      && IdsInRange(cands, |net.agents|)
      && PassInRange(st, |net.agents|)
      && SameTraits(st.me, net.agents[s]) && st.me.belief == net.agents[s].belief
      && st.me.confidenceSet == net.agents[s].confidenceSet + acc
      && st.me.numberOfConflicts == net.agents[s].numberOfConflicts + (|cands| - |acc|)
      && st.me.numberOfContacts == net.agents[s].numberOfContacts + (|cands| - |acc|)
      && (forall p :: p in st.pruned ==> p in cands && !Accepts(net.agents[s], net.agents[p].belief))
      && (Simple(net.adj) && s !in recommended ==> Simple(st.adj) && EdgesKept(net.adj, st.adj))
  {
    var cands := Candidates(net, s, recommended);
    assert IdsInRange(cands, |net.agents|) by {
      assert forall j :: 0 <= j < |net.adj[s]| ==> cands[j] == net.adj[s][j];
    }
    var st0 := Pass(net.adj, net.agents[s], []);
    ConsiderAllAgent(net.agents, net.cap, s, st0, cands, update);
    ConsiderAllPruned(net.agents, net.cap, s, st0, cands, update);
    if Simple(net.adj) && s !in recommended {
      assert s !in net.adj[s];
      assert s !in cands;
      ConsiderAllSimple(net.agents, net.cap, s, st0, cands, update);
    }
  }

  /**
    After `receiveMessages` the confidence set has grown by exactly the
    candidates (neighbours first, then the recommended agents) whose belief
    lay within openness of the agent's belief BEFORE the call.
   */
  lemma ReceiveMessagesConfidence(net: Net, s: nat, recommended: seq<nat>, update: Agent -> real)
    requires ValidNet(net) && s < |net.agents| && IdsInRange(recommended, |net.agents|)
    ensures ReceiveMessages(net, s, recommended, update).agents[s].confidenceSet ==
            net.agents[s].confidenceSet + Accepted(net.agents, net.agents[s], net.adj[s] + recommended)
  {
    ScannedFacts(net, s, recommended, update);
  }

  /**
    Every rejected candidate adds one to both `numberOfConflicts` and
    `numberOfContacts`; accepted ones touch neither, so their difference is
    preserved.
   */
  lemma ReceiveMessagesCounters(net: Net, s: nat, recommended: seq<nat>, update: Agent -> real)
    requires ValidNet(net) && s < |net.agents| && IdsInRange(recommended, |net.agents|)
    ensures var r := ReceiveMessages(net, s, recommended, update).agents[s];
      var cands := net.adj[s] + recommended;
      var rejected := |cands| - |Accepted(net.agents, net.agents[s], cands)|;
      && r.numberOfConflicts == net.agents[s].numberOfConflicts + rejected
      && r.numberOfContacts == net.agents[s].numberOfContacts + rejected
      && r.numberOfConflicts - r.numberOfContacts ==
         net.agents[s].numberOfConflicts - net.agents[s].numberOfContacts
  {
    ScannedFacts(net, s, recommended, update);
  }

  /**
    On a simple graph, with the agent not recommended to itself: the graph
    stays simple, no agent marked for pruning is still a neighbour, only
    rejected candidates are pruned, and the dissonance left by the loop is
    lowered by 0.05 once per pruning mark.
   */
  lemma ReceiveMessagesPruning(net: Net, s: nat, recommended: seq<nat>, update: Agent -> real)
    requires ValidNet(net) && s < |net.agents| && IdsInRange(recommended, |net.agents|)
    requires Simple(net.adj) && s !in recommended
    ensures var r := ReceiveMessages(net, s, recommended, update);
      var st := Scanned(net, s, recommended, update);
      && Simple(r.adj)
      && (forall p :: p in st.pruned ==> p < |r.adj| && p !in r.adj[s] && s !in r.adj[p])
      && (forall p :: p in st.pruned ==>
            p in net.adj[s] + recommended && !Accepts(net.agents[s], net.agents[p].belief))
      && r.agents[s].currentDissonance ==
         st.me.currentDissonance + |st.pruned| as real * DissonanceDecrease
  {
    ScannedFacts(net, s, recommended, update);
  }

  /**
    The new belief is the mean of the old belief and the beliefs of the
    confidence set after the pass: times the pool size it equals their sum.
    It stays within the range of the pooled beliefs.
   */
  lemma ReceiveMessagesBelief(net: Net, s: nat, recommended: seq<nat>, update: Agent -> real)
    requires ValidNet(net) && s < |net.agents| && IdsInRange(recommended, |net.agents|)
    ensures var r := ReceiveMessages(net, s, recommended, update).agents[s];
      && IdsInRange(r.confidenceSet, |net.agents|)
      && IsMean(r.belief, [net.agents[s].belief] + Beliefs(net.agents, r.confidenceSet))
      && var pool := [net.agents[s].belief] + Beliefs(net.agents, r.confidenceSet);
         MinOf(pool) <= r.belief <= MaxOf(pool)
    ensures var r := ReceiveMessages(net, s, recommended, update).agents[s];
      r.confidenceSet == [] ==> r.belief == net.agents[s].belief
  {
    ScannedFacts(net, s, recommended, update);
    var st := Scanned(net, s, recommended, update);
    var (adj', me') := Prune(st.adj, s, st.me, st.pruned);
    assert me'.confidenceSet == st.me.confidenceSet && me'.belief == net.agents[s].belief;
    var peers := Beliefs(net.agents, me'.confidenceSet);
    var b := UpdateBelief(net.agents[s].belief, peers);
    var r := ReceiveMessages(net, s, recommended, update).agents[s];
    assert r == me'.(belief := b);
    assert r.belief == b && Beliefs(net.agents, r.confidenceSet) == peers;
  }

  /** `receiveMessages` keeps the network well formed (ids, ranges, confidence sets). */
  lemma ReceiveMessagesValid(net: Net, s: nat, recommended: seq<nat>, update: Agent -> real)
    requires ValidNet(net) && s < |net.agents| && IdsInRange(recommended, |net.agents|)
    ensures ValidNet(ReceiveMessages(net, s, recommended, update))
    ensures SameTraits(ReceiveMessages(net, s, recommended, update).agents[s], net.agents[s])
  {
    var st := Scanned(net, s, recommended, update);
    ScannedFacts(net, s, recommended, update);
    var r := ReceiveMessages(net, s, recommended, update);
    PruneInRange(st.adj, s, st.me, st.pruned);
  }

  /** The pruning loop only shortens neighbour lists. */
  lemma {:induction false} PruneShrinks(adj: Adj, s: nat, me: Agent, pruned: seq<nat>)
    requires s < |adj| && IdsInRange(pruned, |adj|)
    ensures forall x :: 0 <= x < |adj| ==> |Prune(adj, s, me, pruned).0[x]| <= |adj[x]|
    decreases |pruned|
  {
    if |pruned| > 0 {
      var adj1 := RemoveNeighbour(adj, s, pruned[0]);
      PruneShrinks(adj1, s, me.(currentDissonance := me.currentDissonance + DissonanceDecrease), pruned[1..]);
    }
  }

  /**
    On a simple graph, with the agent not recommended to itself, every edge
    `receiveMessages` adds joins `s` to a recommended agent (not already a
    neighbour) whose belief lay within openness of the agent's belief.
   */
  lemma ReceiveMessagesNewEdge(net: Net, s: nat, recommended: seq<nat>, update: Agent -> real, x: nat, y: nat)
    requires ValidNet(net) && s < |net.agents| && IdsInRange(recommended, |net.agents|)
    requires Simple(net.adj) && s !in recommended
    requires x < |net.agents| && y in ReceiveMessages(net, s, recommended, update).adj[x] && y !in net.adj[x]
    ensures (x == s && y in recommended && Accepts(net.agents[s], net.agents[y].belief))
         || (y == s && x in recommended && Accepts(net.agents[s], net.agents[x].belief))
  {
    var cands := Candidates(net, s, recommended);
    var st0 := Pass(net.adj, net.agents[s], []);
    ScannedFacts(net, s, recommended, update);
    var st := Scanned(net, s, recommended, update);
    assert y in st.adj[x];
    ConsiderAllNewEdge(net.agents, net.cap, s, st0, cands, update, x, y);
    var c := if x == s then y else x;
    AcceptedMembers(net.agents, net.agents[s], cands, c);
    if x != s {
      assert x !in net.adj[s];
    }
  }

  /**
    Every candidate `receiveMessages` accepts was at least offered an edge:
    right after the acceptance pass it is a neighbour of `s`, or one of the
    two had reached the connection limit.
   */
  lemma ReceiveMessagesAttempts(net: Net, s: nat, recommended: seq<nat>, update: Agent -> real, c: nat)
    requires ValidNet(net) && s < |net.agents| && IdsInRange(recommended, |net.agents|)
    requires c in net.adj[s] + recommended && Accepts(net.agents[s], net.agents[c].belief)
    ensures var st := Scanned(net, s, recommended, update);
      c in st.adj[s] || |st.adj[s]| >= net.cap || |st.adj[c]| >= net.cap
  {
    var cands := Candidates(net, s, recommended);
    ScannedFacts(net, s, recommended, update);
    AcceptedMembers(net.agents, net.agents[s], cands, c);
    ConsiderAllAttempts(net.agents, net.cap, s, Pass(net.adj, net.agents[s], []), cands, update, c);
  }

  /**
    `receiveMessages`, with the agent not recommended to itself on a simple
    graph, raises no degree above the larger of its old value and the
    connection limit.
   */
  lemma ReceiveMessagesDegrees(net: Net, s: nat, recommended: seq<nat>, update: Agent -> real)
    requires ValidNet(net) && s < |net.agents| && IdsInRange(recommended, |net.agents|)
    requires Simple(net.adj) && s !in recommended
    ensures var r := ReceiveMessages(net, s, recommended, update);
      forall x :: 0 <= x < |net.adj| ==> |r.adj[x]| <= Max(|net.adj[x]|, net.cap)
  {
    var cands := Candidates(net, s, recommended);
    ScannedFacts(net, s, recommended, update);
    assert s !in net.adj[s];
    assert s !in cands;
    ConsiderAllDegrees(net.agents, net.cap, s, Pass(net.adj, net.agents[s], []), cands, update);
    var st := Scanned(net, s, recommended, update);
    PruneShrinks(st.adj, s, st.me, st.pruned);
  }

  lemma {:induction false} PruneInRange(adj: Adj, s: nat, me: Agent, pruned: seq<nat>)
    requires s < |adj| && IdsInRange(pruned, |adj|) && InRange(adj)
    ensures InRange(Prune(adj, s, me, pruned).0)
    decreases |pruned|
  {
    if |pruned| > 0 {
      var adj1 := RemoveNeighbour(adj, s, pruned[0]);
      var me1 := me.(currentDissonance := me.currentDissonance + DissonanceDecrease);
      RemoveNeighbourInRange(adj, s, pruned[0]);
      PruneInRange(adj1, s, me1, pruned[1..]);
      assert Prune(adj, s, me, pruned).0 == Prune(adj1, s, me1, pruned[1..]).0;
    }
  }

  // ---------------------------------------------------------------------
  // Friend-of-friend edges (fraternize)

  /** The accepted second neighbours reached through neighbour `n`, skipping `s` and `n`. */
  function ThroughNeighbour(agents: seq<Agent>, s: nat, n: nat, n2s: seq<nat>): seq<nat>
    requires s < |agents| && IdsInRange(n2s, |agents|)
    decreases |n2s|
  {
    if |n2s| == 0 then []
    else
      var n2 := n2s[0];
      (if n2 == s || n2 == n || !Accepts(agents[s], agents[n2].belief) then [] else [n2])
      + ThroughNeighbour(agents, s, n, n2s[1..])
  }

  /** The candidate list of `fraternize`, collected over every neighbour in list order. */
  function FriendsOfFriends(agents: seq<Agent>, adj: Adj, s: nat, ns: seq<nat>): seq<nat>
    requires s < |agents| && |agents| == |adj| && InRange(adj) && IdsInRange(ns, |adj|)
    decreases |ns|
  {
    if |ns| == 0 then []
    else ThroughNeighbour(agents, s, ns[0], adj[ns[0]]) + FriendsOfFriends(agents, adj, s, ns[1..])
  }

  /** The proposal loop: `addNeighbour` for every candidate in order. */
  function AddAll(adj: Adj, cap: int, s: nat, cs: seq<nat>): (r: Adj)
    requires s < |adj| && IdsInRange(cs, |adj|)
    ensures |r| == |adj|
    decreases |cs|
  {
    if |cs| == 0 then adj else AddAll(AddNeighbour(adj, cap, s, cs[0]), cap, s, cs[1..])
  }

  /**
    `fraternize()` of agent `s`: candidates are collected from the current
    graph before any edge is added; the dissonance is lowered once per
    candidate whether or not its edge forms.
   */
  function Fraternize(net: Net, s: nat): (r: Net)
    requires ValidNet(net) && s < |net.agents|
    ensures |r.agents| == |net.agents| && r.cap == net.cap && |r.adj| == |net.adj|
    ensures forall i :: 0 <= i < |net.agents| && i != s ==> r.agents[i] == net.agents[i]
  {
    var cands := FriendsOfFriends(net.agents, net.adj, s, net.adj[s]);
    FriendsOfFriendsInRange(net.agents, net.adj, s, net.adj[s]);
    var me := net.agents[s];
    var me' := me.(currentDissonance := me.currentDissonance + |cands| as real * DissonanceDecrease);
    net.(agents := net.agents[s := me'], adj := AddAll(net.adj, net.cap, s, cands))
  }

  lemma {:induction false} ThroughNeighbourMembers(agents: seq<Agent>, s: nat, n: nat, n2s: seq<nat>, c: nat)
    requires s < |agents| && IdsInRange(n2s, |agents|)
    ensures c in ThroughNeighbour(agents, s, n, n2s) <==>
              c in n2s && c != s && c != n && Accepts(agents[s], agents[c].belief)
    decreases |n2s|
  {
    if |n2s| > 0 {
      ThroughNeighbourMembers(agents, s, n, n2s[1..], c);
      assert n2s == [n2s[0]] + n2s[1..];
    }
  }

  /** A friend of a friend: reachable in two steps through some `n` in `ns`, and not `s` or `n`. */
  predicate IsFriendOfFriend(adj: Adj, s: nat, ns: seq<nat>, c: nat)
    requires InRange(adj) && IdsInRange(ns, |adj|)
  {
    exists j :: 0 <= j < |ns| && c in adj[ns[j]] && c != s && c != ns[j]
  }

  /**
    Reference characterisation of the `fraternize` candidates: exactly the
    friends of friends (not `s`, not the intermediate neighbour) within the
    agent's openness.
   */
  lemma {:induction false} FriendsOfFriendsMembers(agents: seq<Agent>, adj: Adj, s: nat, ns: seq<nat>, c: nat)
    requires s < |agents| && |agents| == |adj| && InRange(adj) && IdsInRange(ns, |adj|)
    ensures c in FriendsOfFriends(agents, adj, s, ns) <==>
              c < |adj| && IsFriendOfFriend(adj, s, ns, c) && Accepts(agents[s], agents[c].belief)
    decreases |ns|
  {
    if |ns| > 0 {
      assert IdsInRange(adj[ns[0]], |adj|);
      ThroughNeighbourMembers(agents, s, ns[0], adj[ns[0]], c);
      FriendsOfFriendsMembers(agents, adj, s, ns[1..], c);
      if IsFriendOfFriend(adj, s, ns, c) {
        var j :| 0 <= j < |ns| && c in adj[ns[j]] && c != s && c != ns[j];
        assert c < |adj|;
        if j > 0 {
          assert ns[1..][j - 1] == ns[j];
          assert IsFriendOfFriend(adj, s, ns[1..], c);
        }
      }
      if IsFriendOfFriend(adj, s, ns[1..], c) {
        var j :| 0 <= j < |ns[1..]| && c in adj[ns[1..][j]] && c != s && c != ns[1..][j];
        assert ns[j + 1] == ns[1..][j];
        assert IsFriendOfFriend(adj, s, ns, c);
      }
      if c in adj[ns[0]] && c != s && c != ns[0] {
        assert IsFriendOfFriend(adj, s, ns, c);
      }
    }
  }

  lemma FriendsOfFriendsInRange(agents: seq<Agent>, adj: Adj, s: nat, ns: seq<nat>)
    requires s < |agents| && |agents| == |adj| && InRange(adj) && IdsInRange(ns, |adj|)
    ensures IdsInRange(FriendsOfFriends(agents, adj, s, ns), |adj|)
    ensures s !in FriendsOfFriends(agents, adj, s, ns)
  {
    var cs := FriendsOfFriends(agents, adj, s, ns);
    forall j | 0 <= j < |cs|
      ensures cs[j] < |adj|
    {
      FriendsOfFriendsMembers(agents, adj, s, ns, cs[j]);
    }
    FriendsOfFriendsMembers(agents, adj, s, ns, s);
  }

  lemma {:induction false} AddAllFacts(adj: Adj, cap: int, s: nat, cs: seq<nat>)
    requires s < |adj| && IdsInRange(cs, |adj|) && Simple(adj) && s !in cs
    ensures var r := AddAll(adj, cap, s, cs);
      && Simple(r) && EdgesKept(adj, r)
      && (forall x :: 0 <= x < |adj| ==> |r[x]| <= Max(|adj[x]|, cap))
    decreases |cs|
  {
    if |cs| > 0 {
      var adj1 := AddNeighbour(adj, cap, s, cs[0]);
      AddNeighbourSimple(adj, cap, s, cs[0]);
      assert s !in cs[1..];
      AddAllFacts(adj1, cap, s, cs[1..]);
      var r := AddAll(adj1, cap, s, cs[1..]);
      forall x | 0 <= x < |adj|
        ensures |r[x]| <= Max(|adj[x]|, cap)
      {
        assert |adj1[x]| <= Max(|adj[x]|, cap);
      }
    }
  }

  /** Every edge the proposal loop adds joins `s` and one of the proposed agents. */
  lemma {:induction false} AddAllNewEdge(adj: Adj, cap: int, s: nat, cs: seq<nat>, x: nat, y: nat)
    requires s < |adj| && IdsInRange(cs, |adj|) && Simple(adj) && s !in cs
    requires x < |adj| && y < |adj| && y in AddAll(adj, cap, s, cs)[x] && y !in adj[x]
    ensures (x == s && y in cs) || (y == s && x in cs)
    decreases |cs|
  {
    var adj1 := AddNeighbour(adj, cap, s, cs[0]);
    AddNeighbourSimple(adj, cap, s, cs[0]);
    AddNeighbourEdges(adj, cap, s, cs[0]);
    assert s !in cs[1..];
    if y !in adj1[x] {
      AddAllNewEdge(adj1, cap, s, cs[1..], x, y);
    }
  }

  lemma {:induction false} AddAllInRange(adj: Adj, cap: int, s: nat, cs: seq<nat>)
    requires s < |adj| && IdsInRange(cs, |adj|) && InRange(adj)
    ensures InRange(AddAll(adj, cap, s, cs))
    decreases |cs|
  {
    if |cs| > 0 {
      AddNeighbourInRange(adj, cap, s, cs[0]);
      AddAllInRange(AddNeighbour(adj, cap, s, cs[0]), cap, s, cs[1..]);
    }
  }

  /** An agent already at the connection limit gains no edge from the proposal loop. */
  lemma {:induction false} AddAllKeepsFull(adj: Adj, cap: int, s: nat, cs: seq<nat>, x: nat)
    requires s < |adj| && IdsInRange(cs, |adj|) && x < |adj| && |adj[x]| >= cap
    ensures AddAll(adj, cap, s, cs)[x] == adj[x]
    decreases |cs|
  {
    if |cs| > 0 {
      var adj1 := AddNeighbour(adj, cap, s, cs[0]);
      assert adj1[x] == adj[x];
      AddAllKeepsFull(adj1, cap, s, cs[1..], x);
    }
  }

  /** `fraternize` keeps the network well formed. */
  lemma FraternizeValid(net: Net, s: nat)
    requires ValidNet(net) && s < |net.agents|
    ensures ValidNet(Fraternize(net, s))
    ensures Fraternize(net, s).agents[s].confidenceSet == net.agents[s].confidenceSet
  {
    var cands := FriendsOfFriends(net.agents, net.adj, s, net.adj[s]);
    FriendsOfFriendsInRange(net.agents, net.adj, s, net.adj[s]);
    AddAllInRange(net.adj, net.cap, s, cands);
  }

  /** An agent at or above the connection limit keeps its neighbour list through anyone's `fraternize`. */
  lemma FraternizeKeepsFull(net: Net, s: nat, x: nat)
    requires ValidNet(net) && s < |net.agents| && x < |net.agents| && |net.adj[x]| >= net.cap
    ensures Fraternize(net, s).adj[x] == net.adj[x]
  {
    var cands := FriendsOfFriends(net.agents, net.adj, s, net.adj[s]);
    FriendsOfFriendsInRange(net.agents, net.adj, s, net.adj[s]);
    AddAllKeepsFull(net.adj, net.cap, s, cands, x);
  }

  /**
    `fraternize` on a simple graph: the graph stays simple, no edge is lost,
    and no degree rises above the connection limit.
   */
  lemma FraternizeEdges(net: Net, s: nat)
    requires ValidNet(net) && s < |net.agents| && Simple(net.adj)
    ensures var r := Fraternize(net, s);
      && Simple(r.adj) && EdgesKept(net.adj, r.adj)
      && (forall x :: 0 <= x < |net.adj| ==> |r.adj[x]| <= Max(|net.adj[x]|, net.cap))
  {
    var cands := FriendsOfFriends(net.agents, net.adj, s, net.adj[s]);
    FriendsOfFriendsInRange(net.agents, net.adj, s, net.adj[s]);
    AddAllFacts(net.adj, net.cap, s, cands);
    assert Fraternize(net, s).adj == AddAll(net.adj, net.cap, s, cands);
  }

  /**
    Every edge `fraternize` adds joins `s` to a friend of a friend within
    openness (never `s` itself or the intermediate neighbour).
   */
  lemma FraternizeNewNeighbours(net: Net, s: nat, x: nat, y: nat)
    requires ValidNet(net) && s < |net.agents| && Simple(net.adj)
    requires x < |net.agents| && y < |net.agents|
    requires y in Fraternize(net, s).adj[x] && y !in net.adj[x]
    ensures x == s || y == s
    ensures var c := if x == s then y else x;
      && c != s
      && IsFriendOfFriend(net.adj, s, net.adj[s], c)
      && Accepts(net.agents[s], net.agents[c].belief)
  {
    var cands := FriendsOfFriends(net.agents, net.adj, s, net.adj[s]);
    FriendsOfFriendsInRange(net.agents, net.adj, s, net.adj[s]);
    assert Fraternize(net, s).adj == AddAll(net.adj, net.cap, s, cands);
    AddAllNewEdge(net.adj, net.cap, s, cands, x, y);
    var c := if x == s then y else x;
    FriendsOfFriendsMembers(net.agents, net.adj, s, net.adj[s], c);
  }

  /**
    The pair (neighbour `n`, its neighbour `c`) counts for `fraternize` of
    `s`: `c` is neither `s` nor `n` and its belief is within openness of `s`.
   */
  predicate Qualifies(agents: seq<Agent>, s: nat, n: nat, c: nat)
    requires s < |agents| && c < |agents|
  {
    c != s && c != n && Accepts(agents[s], agents[c].belief)
  }

  /**
    Reference count for `fraternize`: the qualifying positions (i, j), where
    `j` indexes the list of the `i`-th listed neighbour, for `i` from `k` on.
   */
  ghost function PairsFrom(agents: seq<Agent>, adj: Adj, s: nat, ns: seq<nat>, k: nat): set<(nat, nat)>
    requires s < |agents| && |agents| == |adj| && InRange(adj) && IdsInRange(ns, |adj|)
  {
    set i, j | k <= i < |ns| && 0 <= j < |adj[ns[i]]| && Qualifies(agents, s, ns[i], adj[ns[i]][j]) :: (i, j)
  }

  /** The qualifying positions of one neighbour list `l` (at index `i`), from position `m` on. */
  ghost function RowFrom(agents: seq<Agent>, s: nat, n: nat, l: seq<nat>, i: nat, m: nat): set<(nat, nat)>
    requires s < |agents| && IdsInRange(l, |agents|)
  {
    set j | m <= j < |l| && Qualifies(agents, s, n, l[j]) :: (i, j)
  }

  lemma {:induction false} ThroughNeighbourCount(agents: seq<Agent>, s: nat, n: nat, l: seq<nat>, i: nat, m: nat)
    requires s < |agents| && IdsInRange(l, |agents|) && m <= |l|
    ensures |ThroughNeighbour(agents, s, n, l[m..])| == |RowFrom(agents, s, n, l, i, m)|
    decreases |l| - m
  {
    var row := RowFrom(agents, s, n, l, i, m);
    if m == |l| {
      assert row == {};
    } else {
      ThroughNeighbourCount(agents, s, n, l, i, m + 1);
      var rest := RowFrom(agents, s, n, l, i, m + 1);
      var head: set<(nat, nat)> := if Qualifies(agents, s, n, l[m]) then {(i, m)} else {};
      assert l[m..][0] == l[m] && l[m..][1..] == l[m + 1..];
      assert row == head + rest;
      assert head * rest == {};
    }
  }

  lemma {:induction false} FriendsOfFriendsCount(agents: seq<Agent>, adj: Adj, s: nat, ns: seq<nat>, k: nat)
    requires s < |agents| && |agents| == |adj| && InRange(adj) && IdsInRange(ns, |adj|) && k <= |ns|
    ensures IdsInRange(ns[k..], |adj|)
    ensures |FriendsOfFriends(agents, adj, s, ns[k..])| == |PairsFrom(agents, adj, s, ns, k)|
    decreases |ns| - k
  {
    assert IdsInRange(ns[k..], |adj|) by {
      forall c | c in ns[k..] ensures c < |adj| {
        assert c in ns;
      }
    }
    var all := PairsFrom(agents, adj, s, ns, k);
    if k == |ns| {
      assert all == {};
    } else {
      FriendsOfFriendsCount(agents, adj, s, ns, k + 1);
      var l := adj[ns[k]];
      assert IdsInRange(l, |agents|) by {
        forall c | c in l ensures c < |agents| {
          var j :| 0 <= j < |l| && l[j] == c;
        }
      }
      ThroughNeighbourCount(agents, s, ns[k], l, k, 0);
      var row := RowFrom(agents, s, ns[k], l, k, 0);
      var rest := PairsFrom(agents, adj, s, ns, k + 1);
      assert ns[k..][0] == ns[k] && ns[k..][1..] == ns[k + 1..] && l[0..] == l;
      assert all == row + rest;
      assert row * rest == {};
    }
  }

  /**
    `fraternize` lowers the dissonance by 0.05 for every qualifying pair
    (neighbour, second neighbour), counted over positions, so an agent
    reached through two neighbours counts twice; full agents count too.
    Traits and belief are untouched and the connection limit plays no part.
   */
  lemma FraternizeDissonance(net: Net, s: nat, cap: int)
    requires ValidNet(net) && s < |net.agents|
    ensures var pairs := PairsFrom(net.agents, net.adj, s, net.adj[s], 0);
      && Fraternize(net, s).agents[s].currentDissonance ==
         net.agents[s].currentDissonance - 0.05 * |pairs| as real
      && SameTraits(Fraternize(net, s).agents[s], net.agents[s])
      && Fraternize(net, s).agents[s].belief == net.agents[s].belief
      && Fraternize(net.(cap := cap), s).agents[s] == Fraternize(net, s).agents[s]
  {
    FriendsOfFriendsCount(net.agents, net.adj, s, net.adj[s], 0);
    assert net.adj[s][0..] == net.adj[s];
  }

  // ---------------------------------------------------------------------
  // Small setters and queries

  /** `reset()`: empties the confidence set and nothing else. */
  function Reset(a: Agent): (r: Agent)
    ensures r.confidenceSet == []
    ensures SameTraits(r, a) && r.belief == a.belief && r.currentDissonance == a.currentDissonance
    ensures r.numberOfContacts == a.numberOfContacts && r.numberOfConflicts == a.numberOfConflicts
  {
    a.(confidenceSet := [])
  }

  /** `getCanConnect()`: below the global connection limit. */
  function GetCanConnect(net: Net, s: nat): bool
    requires s < |net.adj|
  {
    |net.adj[s]| < net.cap
  }

  /** An agent that fails `getCanConnect` gains no edge from `addNeighbour`, in either direction. */
  lemma CannotConnectNoEdge(net: Net, s: nat, b: nat)
    requires s < |net.adj| && b < |net.adj| && !GetCanConnect(net, s)
    ensures AddNeighbour(net.adj, net.cap, s, b) == net.adj
    ensures AddNeighbour(net.adj, net.cap, b, s) == net.adj
  {
  }

  /** Two agents pass `canTwoConnect` exactly when each can still connect. */
  lemma CanTwoConnectBoth(net: Net, a: nat, b: nat)
    requires a < |net.adj| && b < |net.adj|
    ensures CanTwoConnect(net.adj, net.cap, a, b) <==> GetCanConnect(net, a) && GetCanConnect(net, b)
  {
  }

  /** `setDissonance(v)`: adds `v` to the current dissonance; nothing else changes. */
  function SetDissonance(a: Agent, v: real): (r: Agent)
    ensures r.currentDissonance - a.currentDissonance == v
    ensures r.(currentDissonance := a.currentDissonance) == a
  {
    a.(currentDissonance := a.currentDissonance + v)
  }
}

=== FILE: engine.dfy ===
/**
  The simulation driver (GraphModel.java): starting a random network, one
  diffusion epoch over all agents, the global dissonance update, enforcing
  individual connection limits, and loading agents from a file.
 */
module Engine {
  import opened Graph
  import opened Agents
  import opened Outcome
  import opened Recommendation
  import opened Topology
  import opened Text

  /**
    The model state: the network, the epoch counter, the next free agent id,
    and the recommendation settings.
   */
  datatype Model = Model(net: Net, epoch: int, nextFreeId: nat, strategy: Strategy, recommendationSize: int)

  /** The initial value of the global connection limit. */
  const InitialConnectionLimit: int := 50

  /** A fresh model: no agents, epoch 0, the POLARIZE strategy with 20 recommendations. */
  function NewModel(): Model {
    Model(Net([], [], InitialConnectionLimit), 0, 0, Polarize, 20)
  }

  /** The shape every epoch keeps: a simple graph with every degree within the connection limit. */
  predicate Bounded(net: Net) {
    Simple(net.adj) && DegreesAtMost(net.adj, net.cap)
  }

  // ---------------------------------------------------------------------
  // startRandom

  /**
    `startRandom(numNodes)`: epoch back to 0, fresh agents with ids 0, 1, ...,
    then the network set-up. `traits` supplies each new agent's drawn traits;
    `draw` and `pick` the random numbers of the two set-up phases.
   */
  function StartRandom(m: Model, numNodes: int, traits: nat -> Traits, draw: nat -> nat, pick: nat -> (nat, nat)): (r: (Model, Option<Fault>))
    ensures r.0.epoch == 0
    ensures |r.0.net.agents| == Max(numNodes, 0) && r.0.nextFreeId == |r.0.net.agents|
    ensures forall i :: 0 <= i < |r.0.net.agents| ==> r.0.net.agents[i].id == i
    ensures r.0.strategy == m.strategy && r.0.recommendationSize == m.recommendationSize && r.0.net.cap == m.net.cap
    ensures r.1 == Some(IndexOutOfBounds) <==> numNodes < 2
    ensures r.1 == None || r.1 == Some(IndexOutOfBounds) || r.1 == Some(IllegalArgument)
  {
    var (agents, next) := CreateNodes(numNodes, traits);
    var (net, fault) := SetupNetworkStructure(Net(agents, Empty(|agents|), m.net.cap), draw, pick);
    (Model(net, 0, next, m.strategy, m.recommendationSize), fault)
  }

  /**
    With at least two agents whose individual limits lie between 2 and the
    cap, a random start succeeds with a simple network within the limit in
    which every agent is reachable from agent 0.
   */
  lemma StartRandomConnected(m: Model, numNodes: int, traits: nat -> Traits, draw: nat -> nat, pick: nat -> (nat, nat))
    requires numNodes >= 2
    requires forall i :: 0 <= i < numNodes ==> 2 <= traits(i).individualLimit <= m.net.cap
    ensures StartRandom(m, numNodes, traits, draw, pick).1 == None
    ensures ValidNet(StartRandom(m, numNodes, traits, draw, pick).0.net)
    ensures Bounded(StartRandom(m, numNodes, traits, draw, pick).0.net)
    ensures Connected(StartRandom(m, numNodes, traits, draw, pick).0.net.adj)
  {
    var agents := CreateNodes(numNodes, traits).0;
    assert |agents| == numNodes;
    var limits := Limits(agents);
    assert LimitsFit(limits, m.net.cap) by {
      forall j | 0 <= j < |limits|
        ensures 2 <= limits[j] <= m.net.cap
      {
        assert limits[j] == traits(j).individualLimit;
      }
    }
    SetupFresh(agents, m.net.cap, draw, pick);
    var setup := SetupNetworkStructure(Net(agents, Empty(|agents|), m.net.cap), draw, pick);
    var r := StartRandom(m, numNodes, traits, draw, pick);
    assert r.0.net == setup.0 && r.1 == setup.1;
  }

  /**
    Set-up on fresh agents (ids in order, empty confidence sets, no edges)
    whose limits lie between 2 and the cap: a well-formed, simple network
    within the limit in which every agent is reachable from agent 0.
   */
  lemma SetupFresh(agents: seq<Agent>, cap: int, draw: nat -> nat, pick: nat -> (nat, nat))
    requires |agents| >= 2 && LimitsFit(Limits(agents), cap)
    requires forall i :: 0 <= i < |agents| ==> agents[i].id == i && agents[i].confidenceSet == []
    ensures var setup := SetupNetworkStructure(Net(agents, Empty(|agents|), cap), draw, pick);
      && setup.1 == None && ValidNet(setup.0) && Bounded(setup.0) && Connected(setup.0.adj)
  {
    var net := Net(agents, Empty(|agents|), cap);
    assert forall i :: 0 <= i < |net.adj| ==> net.adj[i] == [];
    SetupConnected(net, draw, pick);
    var setup := SetupNetworkStructure(net, draw, pick);
    var adj := setup.0.adj;
    var limits := Limits(agents);
    assert DegreesAtMost(adj, cap) by {
      forall x | 0 <= x < |adj|
        ensures |adj[x]| <= cap
      {
        assert |adj[x]| <= limits[x];
      }
    }
  }

  // ---------------------------------------------------------------------
  // simulateSpreadStep

  /**
    One agent's turn in the message phase: its confidence set is cleared,
    a recommendation is computed on the current network, and the agent
    receives its messages.
   */
  function ReceiveTurn(net: Net, k: nat, strategy: Strategy, size: int, draw: nat -> nat, update: Agent -> real): (r: Result<Net>)
    requires ValidNet(net) && k < |net.agents|
    ensures r.Success? ==> ValidNet(r.value) && |r.value.agents| == |net.agents| && r.value.cap == net.cap
    ensures r.Failure? <==> strategy == Random && size > 0 && |net.agents| < 2
    ensures r.Failure? ==> r.fault == NoOtherAgent
  {
    var cleared := net.(agents := net.agents[k := Reset(net.agents[k])]);
    match Recommend(strategy, cleared, k, size, draw)
    case Failure(f) => Failure(f)
    case Success(rec) =>
      ReceiveMessagesValid(cleared, k, rec, update);
      Success(ReceiveMessages(cleared, k, rec, update))
  }

  /** The message phase from agent `k` on, in list order; `draws(k)` feeds agent `k`'s recommendation. */
  function ReceiveFrom(net: Net, k: nat, strategy: Strategy, size: int, draws: nat -> nat -> nat, update: Agent -> real): (r: Result<Net>)
    requires ValidNet(net) && k <= |net.agents|
    ensures r.Success? ==> ValidNet(r.value) && |r.value.agents| == |net.agents| && r.value.cap == net.cap
    ensures r.Failure? <==> k < |net.agents| && strategy == Random && size > 0 && |net.agents| < 2
    ensures r.Failure? ==> r.fault == NoOtherAgent
    decreases |net.agents| - k
  {
    if k == |net.agents| then Success(net)
    else
      match ReceiveTurn(net, k, strategy, size, draws(k), update)
      case Failure(f) => Failure(f)
      case Success(net') => ReceiveFrom(net', k + 1, strategy, size, draws, update)
  }

  /** The fraternize phase from agent `k` on: only agents below the connection limit fraternize. */
  function FraternizeFrom(net: Net, k: nat): (r: Net)
    requires ValidNet(net) && k <= |net.agents|
    ensures ValidNet(r) && |r.agents| == |net.agents| && r.cap == net.cap
    decreases |net.agents| - k
  {
    if k == |net.agents| then net
    else if GetCanConnect(net, k) then
      FraternizeValid(net, k);
      FraternizeFrom(Fraternize(net, k), k + 1)
    else FraternizeFrom(net, k + 1)
  }

  /**
    `simulateSpreadStep()`: every agent, in list order, clears its confidence
    set, gets its recommendation and receives messages; only then does every
    agent below the limit fraternize; finally the epoch advances by one. The
    only failure is the random strategy looping forever for want of another
    agent.
   */
  function SimulateSpreadStep(m: Model, draws: nat -> nat -> nat, update: Agent -> real): (r: Result<Model>)
    requires ValidNet(m.net)
    ensures r.Success? ==>
      && r.value.epoch == m.epoch + 1
      && r.value.nextFreeId == m.nextFreeId
      && r.value.strategy == m.strategy && r.value.recommendationSize == m.recommendationSize
      && ValidNet(r.value.net) && |r.value.net.agents| == |m.net.agents| && r.value.net.cap == m.net.cap
    ensures r.Failure? <==> m.strategy == Random && m.recommendationSize > 0 && |m.net.agents| == 1
    ensures r.Failure? ==> r.fault == NoOtherAgent
  {
    match ReceiveFrom(m.net, 0, m.strategy, m.recommendationSize, draws, update)
    case Failure(f) => Failure(f)
    case Success(net) => Success(m.(net := FraternizeFrom(net, 0), epoch := m.epoch + 1))
  }

  /**
    After its turn, an agent's confidence set holds exactly the candidates it
    accepted in this epoch: it was cleared immediately before receiving.
   */
  lemma ReceiveTurnConfidence(net: Net, k: nat, strategy: Strategy, size: int, draw: nat -> nat, update: Agent -> real)
    requires ValidNet(net) && k < |net.agents|
    requires ReceiveTurn(net, k, strategy, size, draw, update).Success?
    ensures var cleared := net.(agents := net.agents[k := Reset(net.agents[k])]);
      var rec := Recommend(strategy, cleared, k, size, draw).value;
      ReceiveTurn(net, k, strategy, size, draw, update).value.agents[k].confidenceSet ==
        Accepted(net.agents, net.agents[k], net.adj[k] + rec)
  {
    var cleared := net.(agents := net.agents[k := Reset(net.agents[k])]);
    var rec := Recommend(strategy, cleared, k, size, draw).value;
    ReceiveMessagesConfidence(cleared, k, rec, update);
    AcceptedSameBeliefs(net.agents, cleared.agents, net.agents[k], cleared.agents[k], net.adj[k] + rec);
  }

  /**
    An agent's turn changes no other agent's record, keeps a simple graph
    simple and raises no degree above the larger of its old value and the limit.
   */
  lemma ReceiveTurnFacts(net: Net, k: nat, strategy: Strategy, size: int, draw: nat -> nat, update: Agent -> real)
    requires ValidNet(net) && k < |net.agents|
    requires ReceiveTurn(net, k, strategy, size, draw, update).Success?
    ensures var r := ReceiveTurn(net, k, strategy, size, draw, update).value;
      forall i :: 0 <= i < |net.agents| && i != k ==> r.agents[i] == net.agents[i]
    ensures Simple(net.adj) ==>
      var r := ReceiveTurn(net, k, strategy, size, draw, update).value;
      && Simple(r.adj)
      && forall x :: 0 <= x < |net.adj| ==> |r.adj[x]| <= Max(|net.adj[x]|, net.cap)
  {
    var cleared := net.(agents := net.agents[k := Reset(net.agents[k])]);
    var rec := Recommend(strategy, cleared, k, size, draw).value;
    if Simple(net.adj) {
      ReceiveMessagesPruning(cleared, k, rec, update);
      ReceiveMessagesDegrees(cleared, k, rec, update);
    }
  }

  lemma {:induction false} ReceiveFromBounded(net: Net, k: nat, strategy: Strategy, size: int, draws: nat -> nat -> nat, update: Agent -> real)
    requires ValidNet(net) && k <= |net.agents| && Bounded(net)
    requires ReceiveFrom(net, k, strategy, size, draws, update).Success?
    ensures Bounded(ReceiveFrom(net, k, strategy, size, draws, update).value)
    decreases |net.agents| - k
  {
    if k < |net.agents| {
      ReceiveTurnFacts(net, k, strategy, size, draws(k), update);
      var net' := ReceiveTurn(net, k, strategy, size, draws(k), update).value;
      assert Bounded(net');
      ReceiveFromBounded(net', k + 1, strategy, size, draws, update);
      assert ReceiveFrom(net, k, strategy, size, draws, update) == ReceiveFrom(net', k + 1, strategy, size, draws, update);
    }
  }

  /** One agent's `fraternize` keeps a simple graph simple and within the limit. */
  lemma FraternizeBounded(net: Net, s: nat)
    requires ValidNet(net) && s < |net.agents| && Bounded(net)
    ensures ValidNet(Fraternize(net, s)) && Bounded(Fraternize(net, s))
  {
    var f := Fraternize(net, s);
    FraternizeEdges(net, s);
    FraternizeValid(net, s);
    forall x | 0 <= x < |f.adj|
      ensures |f.adj[x]| <= f.cap
    {
      assert |f.adj[x]| <= Max(|net.adj[x]|, net.cap);
    }
  }

  lemma {:induction false} FraternizeFromBounded(net: Net, k: nat)
    requires ValidNet(net) && k <= |net.agents| && Bounded(net)
    ensures Bounded(FraternizeFrom(net, k))
    decreases |net.agents| - k, 1
  {
    if k < |net.agents| && GetCanConnect(net, k) {
      FraternizeStepBounded(net, k);
    } else if k < |net.agents| {
      FraternizeSkipBounded(net, k);
    }
  }

  /** The step of the induction above for an agent below the limit, which fraternizes. */
  lemma {:induction false} FraternizeStepBounded(net: Net, k: nat)
    requires ValidNet(net) && k < |net.agents| && Bounded(net) && GetCanConnect(net, k)
    ensures Bounded(FraternizeFrom(net, k))
    decreases |net.agents| - k, 0
  {
    FraternizeBounded(net, k);
    var f := Fraternize(net, k);
    FraternizeFromBounded(f, k + 1);
    assert FraternizeFrom(net, k) == FraternizeFrom(f, k + 1);
  }

  /** The step of the induction for an agent at the limit, which is skipped. */
  lemma {:induction false} FraternizeSkipBounded(net: Net, k: nat)
    requires ValidNet(net) && k < |net.agents| && Bounded(net) && !GetCanConnect(net, k)
    ensures Bounded(FraternizeFrom(net, k))
    decreases |net.agents| - k, 0
  {
    var r := FraternizeFrom(net, k + 1);
    assert FraternizeFrom(net, k) == r;
    FraternizeFromBounded(net, k + 1);
  }

  /**
    An agent at or above the limit when the fraternize phase reaches it (or
    earlier) keeps its record and its neighbours through the rest of the
    phase: it does not fraternize, and nobody else can connect to it.
   */
  lemma {:induction false} FraternizeFromSkipsFull(net: Net, k: nat, x: nat)
    requires ValidNet(net) && k <= |net.agents| && x < |net.agents| && |net.adj[x]| >= net.cap
    ensures FraternizeFrom(net, k).agents[x] == net.agents[x]
    ensures FraternizeFrom(net, k).adj[x] == net.adj[x]
    decreases |net.agents| - k
  {
    if k < |net.agents| && GetCanConnect(net, k) {
      assert k != x;
      FraternizeValid(net, k);
      FraternizeKeepsFull(net, k, x);
      FraternizeFromSkipsFull(Fraternize(net, k), k + 1, x);
    } else if k < |net.agents| {
      FraternizeFromSkipsFull(net, k + 1, x);
    }
  }

  /** A simple network within the connection limit stays so through a whole epoch. */
  lemma SpreadStepBounded(m: Model, draws: nat -> nat -> nat, update: Agent -> real)
    requires ValidNet(m.net) && Bounded(m.net)
    ensures SimulateSpreadStep(m, draws, update).Success? ==> Bounded(SimulateSpreadStep(m, draws, update).value.net)
  {
    var received := ReceiveFrom(m.net, 0, m.strategy, m.recommendationSize, draws, update);
    if received.Success? {
      ReceiveFromBounded(m.net, 0, m.strategy, m.recommendationSize, draws, update);
      FraternizeFromBounded(received.value, 0);
    }
  }

  /**
    Fraternizing comes after every agent has received its messages, and an
    agent that has reached the limit by then does not fraternize: its record
    and neighbours after the epoch are those the message phase left.
   */
  lemma SpreadStepFullAgents(m: Model, draws: nat -> nat -> nat, update: Agent -> real, x: nat)
    requires ValidNet(m.net) && x < |m.net.agents|
    ensures var received := ReceiveFrom(m.net, 0, m.strategy, m.recommendationSize, draws, update);
      received.Success? && |received.value.adj[x]| >= received.value.cap ==>
        && SimulateSpreadStep(m, draws, update).Success?
        && SimulateSpreadStep(m, draws, update).value.net.agents[x] == received.value.agents[x]
        && SimulateSpreadStep(m, draws, update).value.net.adj[x] == received.value.adj[x]
  {
    var received := ReceiveFrom(m.net, 0, m.strategy, m.recommendationSize, draws, update);
    if received.Success? && |received.value.adj[x]| >= received.value.cap {
      FraternizeFromSkipsFull(received.value, 0, x);
    }
  }

  // ---------------------------------------------------------------------
  // updateDissonances

  /** `updateDissonances(d)`: `setDissonance(d)` on every agent. */
  function UpdateDissonances(m: Model, d: real): (r: Model)
    ensures |r.net.agents| == |m.net.agents|
    ensures forall i :: 0 <= i < |m.net.agents| ==>
      && r.net.agents[i].currentDissonance == m.net.agents[i].currentDissonance + d
      && r.net.agents[i].(currentDissonance := m.net.agents[i].currentDissonance) == m.net.agents[i]
    ensures r.net.adj == m.net.adj && r.net.cap == m.net.cap
    ensures r.(net := m.net) == m
  {
    m.(net := m.net.(agents := seq(|m.net.agents|, i requires 0 <= i < |m.net.agents| => SetDissonance(m.net.agents[i], d))))
  }

  /** Two dissonance updates add up; an update by 0 changes nothing. */
  lemma UpdateDissonancesAdd(m: Model, d1: real, d2: real)
    ensures UpdateDissonances(UpdateDissonances(m, d1), d2) == UpdateDissonances(m, d1 + d2)
    ensures UpdateDissonances(m, 0.0) == m
  {
    var a := UpdateDissonances(UpdateDissonances(m, d1), d2).net.agents;
    var b := UpdateDissonances(m, d1 + d2).net.agents;
    assert a == b;
    assert UpdateDissonances(m, 0.0).net.agents == m.net.agents;
  }

  // ---------------------------------------------------------------------
  // setConnectionLimitOnNodes

  /**
    The trimming loop of agent `x`: while it has more neighbours than
    `limit`, remove the neighbour at a random position of its list, on both
    sides. `draw(x, round)` is the random number of each round.
   */
  function Trim(adj: Adj, x: nat, limit: nat, draw: (nat, nat) -> nat, round: nat): (r: Adj)
    requires InRange(adj) && x < |adj|
    ensures |r| == |adj| && InRange(r)
    ensures |r[x]| <= limit
    ensures forall z :: 0 <= z < |adj| ==> |r[z]| <= |adj[z]|
    ensures EdgesKept(r, adj)
    ensures Simple(adj) ==> Simple(r)
    decreases |adj[x]|
  {
    if |adj[x]| <= limit then adj
    else
      var y := adj[x][draw(x, round) % |adj[x]|];
      assert y in adj[x];
      RemoveNeighbourInRange(adj, x, y);
      if Simple(adj) then RemoveNeighbourSimple(adj, x, y); Trim(RemoveNeighbour(adj, x, y), x, limit, draw, round + 1)
      else
      Trim(RemoveNeighbour(adj, x, y), x, limit, draw, round + 1)
  }

  /** The trimming loops of agents `k` and later, in list order. */
  function TrimFrom(adj: Adj, limits: seq<nat>, draw: (nat, nat) -> nat, k: nat): (r: Adj)
    requires InRange(adj) && |limits| == |adj| && k <= |adj|
    ensures |r| == |adj| && InRange(r)
    ensures forall z :: 0 <= z < |adj| ==> |r[z]| <= |adj[z]|
    ensures forall z :: k <= z < |adj| ==> |r[z]| <= limits[z]
    ensures EdgesKept(r, adj)
    ensures Simple(adj) ==> Simple(r)
    decreases |adj| - k
  {
    if k == |adj| then adj
    else TrimFrom(Trim(adj, k, limits[k], draw, 0), limits, draw, k + 1)
  }

  /** When every agent from `k` on is already within its limit, trimming changes nothing. */
  lemma {:induction false} TrimFromWithin(adj: Adj, limits: seq<nat>, draw: (nat, nat) -> nat, k: nat)
    requires InRange(adj) && |limits| == |adj| && k <= |adj|
    requires forall z :: k <= z < |adj| ==> |adj[z]| <= limits[z]
    ensures TrimFrom(adj, limits, draw, k) == adj
    decreases |adj| - k
  {
    if k < |adj| {
      TrimFromWithin(adj, limits, draw, k + 1);
    }
  }

  /**
    `setConnectionLimitOnNodes(newLimit)`: the global limit is replaced, then
    every agent in list order drops random neighbours until it is within its
    INDIVIDUAL limit. The individual limit is the agent's stored field: how
    `getIndividualConnectionLimit` is computed is not part of this model, so
    the field is not recomputed from `newLimit`. Afterwards every agent is
    within its individual limit, no edge was added, and the rest of the model
    is unchanged.
   */
  function SetConnectionLimitOnNodes(m: Model, newLimit: int, draw: (nat, nat) -> nat): (r: Model)
    requires ValidNet(m.net)
    ensures ValidNet(r.net) && r.net.agents == m.net.agents && r.net.cap == newLimit
    ensures forall z :: 0 <= z < |r.net.adj| ==> |r.net.adj[z]| <= m.net.agents[z].individualLimit
    ensures EdgesKept(r.net.adj, m.net.adj)
    ensures Simple(m.net.adj) ==> Simple(r.net.adj)
    ensures r.(net := m.net) == m
  {
    m.(net := m.net.(cap := newLimit, adj := TrimFrom(m.net.adj, Limits(m.net.agents), draw, 0)))
  }

  /**
    The trimming bounds each agent by its stored `individualLimit`, which this
    model keeps as it was; so every degree is within the new global limit
    whenever every stored individual limit is.
   */
  lemma SetConnectionLimitWithinCap(m: Model, newLimit: int, draw: (nat, nat) -> nat)
    requires ValidNet(m.net)
    requires forall j :: 0 <= j < |m.net.agents| ==> m.net.agents[j].individualLimit <= newLimit
    ensures DegreesAtMost(SetConnectionLimitOnNodes(m, newLimit, draw).net.adj, newLimit)
  {
  }

  /** Enforcing the limits a second time, with any random numbers, changes nothing more. */
  lemma SetConnectionLimitIdempotent(m: Model, newLimit: int, draw: (nat, nat) -> nat, draw': (nat, nat) -> nat)
    requires ValidNet(m.net)
    ensures var once := SetConnectionLimitOnNodes(m, newLimit, draw);
      SetConnectionLimitOnNodes(once, newLimit, draw') == once
  {
    var once := SetConnectionLimitOnNodes(m, newLimit, draw);
    TrimFromWithin(once.net.adj, Limits(once.net.agents), draw', 0);
  }

  // ---------------------------------------------------------------------
  // setAgentsFromFile

  /** The only header line the loader accepts, after stripping. */
  const Header: string := "neuroticism,extraversion,openness"

  /**
    One data line: stripped, split at commas, and the first three fields
    parsed as numbers by `parse` (standing for `Float.parseFloat`). Fewer
    than three fields or an unparsable field is an error; extra fields are
    ignored.
   */
  function ParseRow(line: string, parse: string -> Option<real>): (r: Option<(real, real, real)>)
    ensures |Split(Strip(line))| < 3 ==> r == None
    ensures r.Some? ==> parse(Split(Strip(line))[0]) == Some(r.value.0)
    ensures r.Some? ==> parse(Split(Strip(line))[1]) == Some(r.value.1)
    ensures r.Some? ==> parse(Split(Strip(line))[2]) == Some(r.value.2)
  {
    var vals := Split(Strip(line));
    if |vals| < 3 then None
    else match (parse(vals[0]), parse(vals[1]), parse(vals[2]))
      case (Some(n), Some(e), Some(o)) => Some((n, e, o))
      case _ => None
  }

  /** Whitespace around a row does not matter: a stripped row parses the same. */
  lemma ParseRowStripped(line: string, parse: string -> Option<real>)
    ensures ParseRow(Strip(line), parse) == ParseRow(line, parse)
  {
    StripIdempotent(line);
  }

  /**
    The row loop from line `i` of the file on: one agent per line, with the
    next free id. The id counter is advanced before the line's fields are
    parsed, so a bad line still uses up an id; the loop stops there, keeping
    the agents so far, and reports the line's index. `parseRow` is the row
    parser; `traitsFrom` stands for the three-number `Node` constructor.
   */
  function LoadRows(lines: seq<string>, i: nat, agents: seq<Agent>, next: nat,
                    parseRow: string -> Option<(real, real, real)>, traitsFrom: (real, real, real) -> Traits): (r: (seq<Agent>, nat, Option<Fault>))
    requires 1 <= i <= |lines|
    ensures r.2 == None || (r.2.Some? && r.2.value.MalformedRow? && i <= r.2.value.line < |lines|)
    ensures r.1 == next + (|r.0| - |agents|) + (if r.2 == None then 0 else 1) && |agents| <= |r.0|
    decreases |lines| - i
  {
    if i == |lines| then (agents, next, None)
    else match parseRow(lines[i])
      case None => (agents, next + 1, Some(MalformedRow(i)))
      case Some(row) => LoadRows(lines, i + 1, agents + [NewNode(next, traitsFrom(row.0, row.1, row.2))], next + 1, parseRow, traitsFrom)
  }

  /** The row loop succeeds exactly when every remaining line parses, and then makes one agent per line. */
  lemma {:induction false} LoadRowsOk(lines: seq<string>, i: nat, agents: seq<Agent>, next: nat,
                                      parseRow: string -> Option<(real, real, real)>, traitsFrom: (real, real, real) -> Traits)
    requires 1 <= i <= |lines|
    ensures var r := LoadRows(lines, i, agents, next, parseRow, traitsFrom);
      && (r.2 == None <==> forall j :: i <= j < |lines| ==> parseRow(lines[j]).Some?)
      && (r.2 == None ==> |r.0| == |agents| + (|lines| - i))
    decreases |lines| - i
  {
    if i < |lines| {
      var p := parseRow(lines[i]);
      if p.Some? {
        var agents' := agents + [NewNode(next, traitsFrom(p.value.0, p.value.1, p.value.2))];
        LoadRowsOk(lines, i + 1, agents', next + 1, parseRow, traitsFrom);
        assert LoadRows(lines, i, agents, next, parseRow, traitsFrom) == LoadRows(lines, i + 1, agents', next + 1, parseRow, traitsFrom);
      }
    }
  }

  /** The row loop numbers the agents it creates consecutively after those it was given. */
  lemma {:induction false} LoadRowsIds(lines: seq<string>, i: nat, agents: seq<Agent>, base: nat,
                                       parseRow: string -> Option<(real, real, real)>, traitsFrom: (real, real, real) -> Traits)
    requires 1 <= i <= |lines|
    requires forall j :: 0 <= j < |agents| ==> agents[j].id == base + j
    ensures var r := LoadRows(lines, i, agents, base + |agents|, parseRow, traitsFrom);
      forall j :: 0 <= j < |r.0| ==> r.0[j].id == base + j
    decreases |lines| - i
  {
    var r := LoadRows(lines, i, agents, base + |agents|, parseRow, traitsFrom);
    if i == |lines| {
      assert r.0 == agents;
    } else {
      var p := parseRow(lines[i]);
      if p.None? {
        assert r.0 == agents;
      } else {
        var agents' := agents + [NewNode(base + |agents|, traitsFrom(p.value.0, p.value.1, p.value.2))];
        assert agents'[|agents|].id == base + |agents|;
        LoadRowsIds(lines, i + 1, agents', base, parseRow, traitsFrom);
        assert base + |agents'| == base + |agents| + 1;
        assert r == LoadRows(lines, i + 1, agents', base + |agents'|, parseRow, traitsFrom);
      }
    }
  }

  /**
    Everything after the header check: the row loop, then the network set-up
    once every line has parsed. A bad line leaves the agents read so far,
    unconnected.
   */
  function LoadAgents(m: Model, lines: seq<string>, parseRow: string -> Option<(real, real, real)>,
                      traitsFrom: (real, real, real) -> Traits,
                      draw: nat -> nat, pick: nat -> (nat, nat)): (r: (Model, Option<Fault>))
    requires |lines| >= 1
    ensures r.0.epoch == 0
    ensures r.0.strategy == m.strategy && r.0.recommendationSize == m.recommendationSize && r.0.net.cap == m.net.cap
    ensures r.1 == None || r.1 == Some(IndexOutOfBounds) || r.1 == Some(IllegalArgument) ||
            (r.1.Some? && r.1.value.MalformedRow?)
    ensures |r.0.net.adj| == |r.0.net.agents|
    ensures r.0.nextFreeId == |r.0.net.agents| + (if r.1.Some? && r.1.value.MalformedRow? then 1 else 0)
  {
    var (agents, next, fault) := LoadRows(lines, 1, [], 0, parseRow, traitsFrom);
    var net := Net(agents, Empty(|agents|), m.net.cap);
    var loaded := m.(net := net, epoch := 0, nextFreeId := next);
    if fault.Some? then (loaded, fault)
    else
      var (net', fault') := SetupNetworkStructure(net, draw, pick);
      (loaded.(net := net'), fault')
  }

  /**
    `setAgentsFromFile` on the file's lines: the id counter, the agent list
    and the epoch are reset first; an empty file or a header that is not
    `Header` after stripping is rejected with the list left empty; otherwise
    the agents are loaded from the later lines.
   */
  function SetAgentsFromFile(m: Model, lines: seq<string>, parse: string -> Option<real>,
                             traitsFrom: (real, real, real) -> Traits,
                             draw: nat -> nat, pick: nat -> (nat, nat)): (r: (Model, Option<Fault>))
    ensures r.0.epoch == 0
    ensures r.0.strategy == m.strategy && r.0.recommendationSize == m.recommendationSize && r.0.net.cap == m.net.cap
    ensures r.1 == Some(MissingHeader) <==> |lines| == 0
    ensures r.1 == Some(HeaderMismatch) <==> |lines| > 0 && Strip(lines[0]) != Header
    ensures r.1 == Some(MissingHeader) || r.1 == Some(HeaderMismatch) ==>
      r.0.net.agents == [] && r.0.net.adj == [] && r.0.nextFreeId == 0
    ensures |r.0.net.adj| == |r.0.net.agents|
    ensures r.0.nextFreeId == |r.0.net.agents| + (if r.1.Some? && r.1.value.MalformedRow? then 1 else 0)
  {
    var cleared := m.(net := Net([], [], m.net.cap), epoch := 0, nextFreeId := 0);
    if |lines| == 0 then (cleared, Some(MissingHeader))
    else if Strip(lines[0]) != Header then (cleared, Some(HeaderMismatch))
    else LoadAgents(m, lines, line => ParseRow(line, parse), traitsFrom, draw, pick)
  }

  /**
    When every data line parses, there is one agent per data line with ids
    0, 1, ... in line order. The set-up then reports fewer than two agents,
    or an exhausted selection; when the limits lie between 2 and the cap it
    succeeds with a connected network.
   */
  lemma LoadAgentsAllRows(m: Model, lines: seq<string>, parseRow: string -> Option<(real, real, real)>,
                          traitsFrom: (real, real, real) -> Traits, draw: nat -> nat, pick: nat -> (nat, nat))
    requires |lines| >= 1
    requires forall j :: 1 <= j < |lines| ==> parseRow(lines[j]).Some?
    ensures var r := LoadAgents(m, lines, parseRow, traitsFrom, draw, pick);
      && |r.0.net.agents| == |lines| - 1
      && (forall j :: 0 <= j < |r.0.net.agents| ==> r.0.net.agents[j].id == j)
      && (r.1 == Some(IndexOutOfBounds) <==> |lines| < 3)
      && (r.1 == None || r.1 == Some(IndexOutOfBounds) || r.1 == Some(IllegalArgument))
      && (|lines| >= 3 && LimitsFit(Limits(r.0.net.agents), m.net.cap) ==>
            r.1 == None && Simple(r.0.net.adj) && Connected(r.0.net.adj))
  {
    LoadRowsOk(lines, 1, [], 0, parseRow, traitsFrom);
    LoadRowsIds(lines, 1, [], 0, parseRow, traitsFrom);
    var loaded := LoadRows(lines, 1, [], 0, parseRow, traitsFrom);
    var agents := loaded.0;
    assert loaded.2 == None && |agents| == |lines| - 1;
    assert forall j :: 0 <= j < |agents| ==> agents[j].id == j;
    var net := Net(agents, Empty(|agents|), m.net.cap);
    var setup := SetupNetworkStructure(net, draw, pick);
    var r := LoadAgents(m, lines, parseRow, traitsFrom, draw, pick);
    assert r.0.net == setup.0 && r.1 == setup.1;
    if |agents| >= 2 && LimitsFit(Limits(agents), m.net.cap) {
      SetupConnected(net, draw, pick);
    }
  }

  /** A file with the right header whose every data line parses loads as `LoadAgentsAllRows` describes. */
  lemma SetAgentsFromFileLoads(m: Model, lines: seq<string>, parse: string -> Option<real>,
                               traitsFrom: (real, real, real) -> Traits, draw: nat -> nat, pick: nat -> (nat, nat))
    requires |lines| > 0 && Strip(lines[0]) == Header
    requires forall j :: 1 <= j < |lines| ==> ParseRow(lines[j], parse).Some?
    ensures var r := SetAgentsFromFile(m, lines, parse, traitsFrom, draw, pick);
      && |r.0.net.agents| == |lines| - 1
      && (forall j :: 0 <= j < |r.0.net.agents| ==> r.0.net.agents[j].id == j)
      && (r.1 == Some(IndexOutOfBounds) <==> |lines| < 3)
      && (r.1 == None || r.1 == Some(IndexOutOfBounds) || r.1 == Some(IllegalArgument))
      && (|lines| >= 3 && LimitsFit(Limits(r.0.net.agents), m.net.cap) ==>
            r.1 == None && Simple(r.0.net.adj) && Connected(r.0.net.adj))
  {
    var parseRow := line => ParseRow(line, parse);
    assert forall j :: 1 <= j < |lines| ==> parseRow(lines[j]).Some?;
    LoadAgentsAllRows(m, lines, parseRow, traitsFrom, draw, pick);
    assert SetAgentsFromFile(m, lines, parse, traitsFrom, draw, pick) == LoadAgents(m, lines, parseRow, traitsFrom, draw, pick);
  }

  /** A line that does not parse stops the load there, keeping exactly the agents of the lines before it. */
  lemma SetAgentsFromFileBadLine(m: Model, lines: seq<string>, parse: string -> Option<real>,
                                 traitsFrom: (real, real, real) -> Traits, draw: nat -> nat, pick: nat -> (nat, nat), bad: nat)
    requires |lines| > 0 && Strip(lines[0]) == Header
    requires 1 <= bad < |lines| && ParseRow(lines[bad], parse).None?
    requires forall j :: 1 <= j < bad ==> ParseRow(lines[j], parse).Some?
    ensures var r := SetAgentsFromFile(m, lines, parse, traitsFrom, draw, pick);
      && r.1 == Some(MalformedRow(bad))
      && |r.0.net.agents| == bad - 1
      && r.0.nextFreeId == bad
      && r.0.net.adj == Empty(bad - 1)
  {
    var parseRow := line => ParseRow(line, parse);
    assert forall j :: 1 <= j < bad ==> parseRow(lines[j]).Some?;
    LoadRowsBadLine(lines, 1, [], 0, parseRow, traitsFrom, bad);
    assert SetAgentsFromFile(m, lines, parse, traitsFrom, draw, pick) == LoadAgents(m, lines, parseRow, traitsFrom, draw, pick);
  }

  lemma {:induction false} LoadRowsBadLine(lines: seq<string>, i: nat, agents: seq<Agent>, next: nat,
                                           parseRow: string -> Option<(real, real, real)>, traitsFrom: (real, real, real) -> Traits, bad: nat)
    requires 1 <= i <= bad < |lines| && parseRow(lines[bad]).None?
    requires forall j :: i <= j < bad ==> parseRow(lines[j]).Some?
    ensures LoadRows(lines, i, agents, next, parseRow, traitsFrom).2 == Some(MalformedRow(bad))
    ensures |LoadRows(lines, i, agents, next, parseRow, traitsFrom).0| == |agents| + (bad - i)
    decreases bad - i
  {
    if i < bad {
      var row := parseRow(lines[i]).value;
      var agents' := agents + [NewNode(next, traitsFrom(row.0, row.1, row.2))];
      LoadRowsBadLine(lines, i + 1, agents', next + 1, parseRow, traitsFrom, bad);
      assert LoadRows(lines, i, agents, next, parseRow, traitsFrom) == LoadRows(lines, i + 1, agents', next + 1, parseRow, traitsFrom);
    }
  }
}

=== FILE: graph.dfy ===
/**
  Undirected agent graph as ordered neighbour lists (Node.java: addNeighbour,
  canTwoConnect, removeNeighbour).

  Agents are identified by their id, which is also their position in the
  model's node list, so `adj[a]` is the neighbour list of agent `a`, in the
  order in which the neighbours were added.
 */
module Graph {

  type Adj = seq<seq<nat>>

  /** Every listed neighbour is an existing agent. */
  predicate InRange(adj: Adj) {
    forall a, j :: 0 <= a < |adj| && 0 <= j < |adj[a]| ==> adj[a][j] < |adj|
  }

  /** `a` lists `b` exactly when `b` lists `a`. */
  predicate Symmetric(adj: Adj) {
    forall a, b :: 0 <= a < |adj| && 0 <= b < |adj| ==> (b in adj[a] <==> a in adj[b])
  }

  predicate NoDup(s: seq<nat>) {
    forall i, j :: 0 <= i < j < |s| ==> s[i] != s[j]
  }

  /** A simple undirected graph: symmetric, no self-loops, no parallel edges. */
  predicate Simple(adj: Adj) {
    && InRange(adj)
    && Symmetric(adj)
    && (forall a :: 0 <= a < |adj| ==> a !in adj[a])
    && (forall a :: 0 <= a < |adj| ==> NoDup(adj[a]))
  }

  /** Every list of `adj` is still present, possibly longer, in `adj'`. */
  predicate EdgesKept(adj: Adj, adj': Adj) {
    |adj| == |adj'| &&
    forall a, b :: 0 <= a < |adj| && b in adj[a] ==> b in adj'[a]
  }

  /** Every agent has at most `cap` neighbours. */
  predicate DegreesAtMost(adj: Adj, cap: int) {
    forall x :: 0 <= x < |adj| ==> |adj[x]| <= cap
  }

  function Max(x: int, y: int): int {
    if x < y then y else x
  }

  function Min(x: int, y: int): int {
    if x < y then x else y
  }

  /** Sum of the list lengths of agents `i` and later. */
  function DegreesFrom(adj: Adj, i: nat): nat
    decreases |adj| - i
  {
    if i >= |adj| then 0 else |adj[i]| + DegreesFrom(adj, i + 1)
  }

  /** Sum of all list lengths: twice the number of edges of a simple graph. */
  function DegreeSum(adj: Adj): nat {
    DegreesFrom(adj, 0)
  }

  /** Replacing one list changes the degree sum by the difference in length. */
  lemma {:induction false} DegreesFromUpdate(adj: Adj, i: nat, x: nat, s: seq<nat>)
    requires x < |adj|
    ensures DegreesFrom(adj[x := s], i) ==
            DegreesFrom(adj, i) + (if i <= x then |s| - |adj[x]| else 0)
    decreases |adj| - i
  {
    if i < |adj| {
      DegreesFromUpdate(adj, i + 1, x, s);
    }
  }

  /** `n` agents without any neighbour. */
  function Empty(n: nat): (adj: Adj)
    ensures |adj| == n && forall a :: 0 <= a < n ==> adj[a] == []
  {
    seq(n, _ => [])
  }

  lemma EmptyIsSimple(n: nat)
    ensures Simple(Empty(n)) && DegreeSum(Empty(n)) == 0
  {
    EmptyDegrees(n, 0);
  }

  lemma {:induction false} EmptyDegrees(n: nat, i: nat)
    ensures DegreesFrom(Empty(n), i) == 0
    decreases n - i
  {
    if i < n {
      EmptyDegrees(n, i + 1);
    }
  }

  /** Both agents are below the global connection limit. */
  function CanTwoConnect(adj: Adj, cap: int, a: nat, b: nat): bool
    requires a < |adj| && b < |adj|
  {
    |adj[a]| < cap && |adj[b]| < cap
  }

  /**
    `a.addNeighbour(b)`: when `b` is not yet listed by `a` and both are below
    the cap, `b` is appended to `a`'s list and then `a` to `b`'s list. For
    `a == b` both appends land in the same list.
   */
  function AddNeighbour(adj: Adj, cap: int, a: nat, b: nat): (r: Adj)
    requires a < |adj| && b < |adj|
    ensures |r| == |adj|
    ensures forall x :: 0 <= x < |adj| && x != a && x != b ==> r[x] == adj[x]
    ensures b !in adj[a] && CanTwoConnect(adj, cap, a, b) && a != b ==>
              r[a] == adj[a] + [b] && r[b] == adj[b] + [a]
    ensures b !in adj[a] && CanTwoConnect(adj, cap, a, b) && a == b ==>
              r[a] == adj[a] + [a, a]
    ensures b in adj[a] || !CanTwoConnect(adj, cap, a, b) ==> r == adj
    ensures a != b ==> forall x :: 0 <= x < |adj| ==> |r[x]| <= Max(|adj[x]|, cap)
  {
    if b !in adj[a] && CanTwoConnect(adj, cap, a, b) then
      var adj1 := adj[a := adj[a] + [b]];
      adj1[b := adj1[b] + [a]]
    else
      adj
  }

  /** `ArrayList.indexOf(Object)`: the position of the first occurrence of `x`. */
  function IndexOf(s: seq<nat>, x: nat): (i: nat)
    requires x in s
    ensures i < |s| && s[i] == x && x !in s[..i]
  {
    if s[0] == x then 0
    else
      var i := 1 + IndexOf(s[1..], x);
      assert s[..i] == [s[0]] + s[1..][..i - 1];
      i
  }

  /** `ArrayList.remove(Object)`: drops the first occurrence of `x`, if any. */
  function RemoveFirst(s: seq<nat>, x: nat): (r: seq<nat>)
    ensures multiset(r) == multiset(s) - multiset{x}
  {
    if |s| == 0 then []
    else if s[0] == x then
      assert s == [s[0]] + s[1..];
      s[1..]
    else
      assert s == [s[0]] + s[1..];
      [s[0]] + RemoveFirst(s[1..], x)
  }

  /**
    Exactly the first occurrence of `x` goes and the rest keep their order:
    with `i` the position of the first `x`, the result is `s` without `s[i]`.
   */
  lemma {:induction false} RemoveFirstAt(s: seq<nat>, x: nat, i: nat)
    requires i < |s| && s[i] == x && x !in s[..i]
    ensures RemoveFirst(s, x) == s[..i] + s[i + 1..]
  {
    var t := s[1..];
    assert s == [s[0]] + t;
    if i == 0 {
      assert s[..0] + s[1..] == t;
    } else {
      assert s[0] in s[..i];
      assert x !in t[..i - 1] by {
        assert t[..i - 1] == s[1..i];
      }
      RemoveFirstAt(t, x, i - 1);
      assert RemoveFirst(s, x) == [s[0]] + RemoveFirst(t, x);
      SkipCons(s, i);
    }
  }

  /** Removing position `i > 0` commutes with taking off the head. */
  lemma SkipCons(s: seq<nat>, i: nat)
    requires 0 < i < |s|
    ensures [s[0]] + (s[1..][..i - 1] + s[1..][i..]) == s[..i] + s[i + 1..]
  {
    assert [s[0]] + s[1..][..i - 1] == s[..i];
    assert s[1..][i..] == s[i + 1..];
  }

  /** Membership, length and duplicate-freedom after `RemoveFirst`. */
  lemma RemoveFirstFacts(s: seq<nat>, x: nat)
    ensures x in s ==> |RemoveFirst(s, x)| == |s| - 1
    ensures x !in s ==> RemoveFirst(s, x) == s
    ensures forall y :: y in RemoveFirst(s, x) ==> y in s
    ensures NoDup(s) ==> NoDup(RemoveFirst(s, x)) && x !in RemoveFirst(s, x)
  {
    var r := RemoveFirst(s, x);
    assert |r| == |multiset(r)| && |s| == |multiset(s)|;
    assert x in s <==> x in multiset(s);
    RemoveFirstSubset(s, x);
    if x !in s {
      NotInRemoveFirst(s, x);
    }
    if NoDup(s) {
      NoDupRemoveFirst(s, x);
    }
  }

  lemma RemoveFirstSubset(s: seq<nat>, x: nat)
    ensures forall y :: y in RemoveFirst(s, x) ==> y in s
  {
    forall y | y in RemoveFirst(s, x)
      ensures y in s
    {
      assert y in multiset(RemoveFirst(s, x));
    }
  }

  lemma {:induction false} NotInRemoveFirst(s: seq<nat>, x: nat)
    requires x !in s
    ensures RemoveFirst(s, x) == s
  {
    if |s| > 0 {
      NotInRemoveFirst(s[1..], x);
    }
  }

  lemma NoDupCons(s: seq<nat>)
    requires |s| > 0
    ensures NoDup(s) <==> NoDup(s[1..]) && s[0] !in s[1..]
  {
    if NoDup(s[1..]) && s[0] !in s[1..] {
      forall i, j | 0 <= i < j < |s|
        ensures s[i] != s[j]
      {
        if i == 0 {
          assert s[j] == s[1..][j - 1];
        } else {
          assert s[i] == s[1..][i - 1] && s[j] == s[1..][j - 1];
        }
      }
    }
    if NoDup(s) {
      forall j | 0 <= j < |s[1..]|
        ensures s[1..][j] != s[0]
      {
        assert s[1..][j] == s[j + 1];
      }
    }
  }

  lemma {:induction false} NoDupRemoveFirst(s: seq<nat>, x: nat)
    requires NoDup(s)
    ensures NoDup(RemoveFirst(s, x)) && x !in RemoveFirst(s, x)
  {
    if |s| > 0 {
      NoDupCons(s);
      if s[0] != x {
        NoDupRemoveFirst(s[1..], x);
        var rest := RemoveFirst(s[1..], x);
        RemoveFirstSubset(s[1..], x);
        assert RemoveFirst(s, x) == [s[0]] + rest;
        NoDupCons([s[0]] + rest);
        assert ([s[0]] + rest)[1..] == rest;
      }
    }
  }

  /**
    `a.removeNeighbour(b)`: when `a` lists `b`, the first `b` leaves `a`'s
    list and then the first `a` leaves `b`'s list; otherwise nothing changes.
   */
  function RemoveNeighbour(adj: Adj, a: nat, b: nat): (r: Adj)
    requires a < |adj| && b < |adj|
    ensures |r| == |adj|
    ensures b !in adj[a] ==> r == adj
    ensures forall x :: 0 <= x < |adj| && x != a && x != b ==> r[x] == adj[x]
    ensures forall x :: 0 <= x < |adj| ==> |r[x]| <= |adj[x]|
    ensures b in adj[a] ==> |r[a]| < |adj[a]|
    ensures forall x, y :: 0 <= x < |adj| && y in r[x] ==> y in adj[x]
  {
    RemoveFirstFacts(adj[a], b);
    if b in adj[a] then
      RemoveFirstFacts(adj[a := RemoveFirst(adj[a], b)][b], a);
      var adj1 := adj[a := RemoveFirst(adj[a], b)];
      adj1[b := RemoveFirst(adj1[b], a)]
    else
      adj
  }

  /** Removing an edge never introduces an out-of-range id. */
  lemma RemoveNeighbourInRange(adj: Adj, a: nat, b: nat)
    requires InRange(adj) && a < |adj| && b < |adj|
    ensures InRange(RemoveNeighbour(adj, a, b))
  {
    var r := RemoveNeighbour(adj, a, b);
    forall x, j | 0 <= x < |r| && 0 <= j < |r[x]|
      ensures r[x][j] < |r|
    {
      assert r[x][j] in r[x];
    }
  }

  /** Adding an edge between two agents never introduces an out-of-range id. */
  lemma AddNeighbourInRange(adj: Adj, cap: int, a: nat, b: nat)
    requires InRange(adj) && a < |adj| && b < |adj|
    ensures InRange(AddNeighbour(adj, cap, a, b))
  {
    var r := AddNeighbour(adj, cap, a, b);
    forall x, j | 0 <= x < |r| && 0 <= j < |r[x]|
      ensures r[x][j] < |r|
    {
      if r[x] != adj[x] && j >= |adj[x]| {
        assert r[x][j] == a || r[x][j] == b;
      }
    }
  }

  lemma InRemoveFirst(s: seq<nat>, x: nat, y: nat)
    requires NoDup(s)
    ensures y in RemoveFirst(s, x) <==> y in s && y != x
  {
    var r := RemoveFirst(s, x);
    RemoveFirstFacts(s, x);
    assert y in r <==> y in multiset(r);
    assert y in s <==> y in multiset(s);
  }

  /**
    On a simple graph the new edge relation after `AddNeighbour` is the old
    one plus the pair {a, b} exactly when the addition was allowed.
   */
  lemma AddNeighbourEdges(adj: Adj, cap: int, a: nat, b: nat)
    requires Simple(adj) && a < |adj| && b < |adj| && a != b
    ensures var r := AddNeighbour(adj, cap, a, b);
      var added := b !in adj[a] && CanTwoConnect(adj, cap, a, b);
      forall x, y :: 0 <= x < |adj| && 0 <= y < |adj| ==>
        (y in r[x] <==> y in adj[x] || (added && ((x == a && y == b) || (x == b && y == a))))
  {
  }

  /** `addNeighbour` between two distinct agents keeps the graph simple. */
  lemma AddNeighbourSimple(adj: Adj, cap: int, a: nat, b: nat)
    requires Simple(adj) && a < |adj| && b < |adj| && a != b
    ensures Simple(AddNeighbour(adj, cap, a, b))
    ensures EdgesKept(adj, AddNeighbour(adj, cap, a, b))
  {
    var r := AddNeighbour(adj, cap, a, b);
    AddNeighbourEdges(adj, cap, a, b);
    if b !in adj[a] && CanTwoConnect(adj, cap, a, b) {
      assert a !in adj[b];
      forall x | 0 <= x < |r|
        ensures NoDup(r[x])
      {
        if x == a || x == b {
          var o := if x == a then b else a;
          assert r[x] == adj[x] + [o];
          assert o !in adj[x];
        }
      }
    }
  }

  /**
    On a simple graph `removeNeighbour` deletes exactly the pair {a, b} from
    the edge relation (a no-op when it is absent).
   */
  lemma RemoveNeighbourEdges(adj: Adj, a: nat, b: nat)
    requires Simple(adj) && a < |adj| && b < |adj|
    ensures var r := RemoveNeighbour(adj, a, b);
      forall x, y :: 0 <= x < |adj| && 0 <= y < |adj| ==>
        (y in r[x] <==> y in adj[x] && !((x == a && y == b) || (x == b && y == a)))
  {
    var r := RemoveNeighbour(adj, a, b);
    if b in adj[a] {
      assert a != b;
      forall x, y | 0 <= x < |adj| && 0 <= y < |adj|
        ensures y in r[x] <==> y in adj[x] && !((x == a && y == b) || (x == b && y == a))
      {
        if x == a {
          InRemoveFirst(adj[a], b, y);
        } else if x == b {
          InRemoveFirst(adj[b], a, y);
        }
      }
    }
  }

  /** `removeNeighbour` keeps a simple graph simple; no edge is gained. */
  lemma RemoveNeighbourSimple(adj: Adj, a: nat, b: nat)
    requires Simple(adj) && a < |adj| && b < |adj|
    ensures Simple(RemoveNeighbour(adj, a, b))
    ensures b !in RemoveNeighbour(adj, a, b)[a] && a !in RemoveNeighbour(adj, a, b)[b]
  {
    var r := RemoveNeighbour(adj, a, b);
    RemoveNeighbourEdges(adj, a, b);
    if b in adj[a] {
      assert InRange(r) by {
        forall x, j | 0 <= x < |r| && 0 <= j < |r[x]|
          ensures r[x][j] < |r|
        {
          assert r[x][j] in r[x];
        }
      }
      assert forall x :: 0 <= x < |r| ==> NoDup(r[x]) by {
        forall x | 0 <= x < |r|
          ensures NoDup(r[x])
        {
          if x == a {
            assert r[a] == RemoveFirst(adj[a], b);
            RemoveFirstFacts(adj[a], b);
          } else if x == b {
            assert r[b] == RemoveFirst(adj[b], a);
            RemoveFirstFacts(adj[b], a);
          }
        }
      }
    }
  }
}

=== FILE: outcome.dfy ===
/**
  Results of the operations that can end in a Java exception or never return.
 */
module Outcome {

  /**
    Why an operation stopped early:
    - `IndexOutOfBounds`: a list was indexed past its end (fewer than two agents to seed the graph);
    - `IllegalArgument`: `Random.nextInt` was asked for a bound that is not positive;
    - `NoOtherAgent`: random recommendation with no other agent to pick, where the source loops forever;
    - `MissingHeader`: the agent file has no first line (`readLine()` returned null);
    - `HeaderMismatch`: the first line is not the expected header;
    - `MalformedRow(line)`: a data line could not be parsed into three numbers.
   */
  datatype Fault =
    | IndexOutOfBounds
    | IllegalArgument
    | NoOtherAgent
    | MissingHeader
    | HeaderMismatch
    | MalformedRow(line: nat)

  datatype Result<T> = Success(value: T) | Failure(fault: Fault)

  datatype Option<T> = None | Some(value: T)
}

=== FILE: recommend.dfy ===
/**
  Recommendation strategies (RecommendationStrategy.java): pure selection of
  candidate agents for one requesting agent. They only read the network.
 */
module Recommendation {
  import opened Graph
  import opened Agents
  import opened Outcome

  datatype Strategy = Random | Polarize | Neutralize

  /** `maxDeviationDifference` of the neutralize strategy. */
  const MaxDeviationDifference: real := 0.1

  // ---------------------------------------------------------------------
  // RANDOM

  /**
    One accepted draw of the rejection loop: the loop keeps drawing uniform
    indices until one differs from `agent`, so every draw that is kept is one
    of the other `n - 1` agents. `d` selects which one.
   */
  function OtherAgent(n: nat, agent: nat, d: nat): (b: nat)
    requires agent < n && n >= 2
    ensures b < n && b != agent
  {
    (agent + 1 + d % (n - 1)) % n
  }

  /** Every other agent can be the kept draw: the random strategy may pick any of them. */
  lemma OtherAgentOnto(n: nat, agent: nat, b: nat)
    requires agent < n && n >= 2 && b < n && b != agent
    ensures OtherAgent(n, agent, (b + n - agent - 1) % n) == b
  {
    var d := (b + n - agent - 1) % n;
    if b > agent {
      ModWrap(b + n - agent - 1, n);
      assert d == b - agent - 1;
      ModBelow(d, n - 1);
      ModBelow(agent + 1 + d, n);
    } else {
      ModBelow(b + n - agent - 1, n);
      assert d == b + n - agent - 1;
      ModBelow(d, n - 1);
      ModWrap(agent + 1 + d, n);
    }
  }

  lemma ModBelow(x: nat, n: nat)
    requires x < n
    ensures x % n == x
  {
  }

  lemma ModWrap(x: nat, n: nat)
    requires n <= x < 2 * n
    ensures x % n == x - n
  {
  }

  function RandomPicks(n: nat, agent: nat, k: nat, draw: nat -> nat): (r: seq<nat>)
    requires agent < n && n >= 2
    ensures |r| == k
    ensures forall j :: 0 <= j < k ==> r[j] == OtherAgent(n, agent, draw(j))
  {
    if k == 0 then [] else RandomPicks(n, agent, k - 1, draw) + [OtherAgent(n, agent, draw(k - 1))]
  }

  /**
    `recommendRandom`: exactly `size` picks (none when `size <= 0`), each an
    agent other than the requester; repeats and current neighbours may occur.
    With no other agent and a positive size the source never returns.
   */
  function RecommendRandom(n: nat, agent: nat, size: int, draw: nat -> nat): (r: Result<seq<nat>>)
    requires agent < n
    ensures r.Failure? <==> size > 0 && n < 2
    ensures r.Failure? ==> r.fault == NoOtherAgent
    ensures r.Success? ==> |r.value| == Max(size, 0)
    ensures r.Success? ==> forall j :: 0 <= j < |r.value| ==> r.value[j] < n && r.value[j] != agent
  {
    if size <= 0 then Success([])
    else if n < 2 then Failure(NoOtherAgent)
    else Success(RandomPicks(n, agent, size, draw))
  }

  // ---------------------------------------------------------------------
  // POLARIZE and NEUTRALIZE: an ordered scan with an early stop

  /**
    The filter of the scanning strategies for candidate `i` of `agent`:
    POLARIZE wants beliefs within the agent's weighted openness, not yet a
    neighbour, and both below the connection limit; NEUTRALIZE wants beliefs
    strictly closer to 0.5 than the agent's and within 0.1 of it.
   */
  predicate Keeps(strategy: Strategy, net: Net, agent: nat, i: nat)
    requires ValidNet(net) && agent < |net.agents| && i < |net.agents|
  {
    var a := net.agents[agent];
    var b := net.agents[i].belief;
    match strategy
    case Polarize =>
      && Abs(b - a.belief) < a.weightedOpenness
      && i !in net.adj[agent]
      && CanTwoConnect(net.adj, net.cap, agent, i)
    case Neutralize =>
      && Abs(0.5 - b) < Abs(0.5 - a.belief)
      && Abs(a.belief - b) < MaxDeviationDifference
    case Random => false
  }

  /**
    The loop over all agents in list order from index `i`: the requester is
    skipped, the loop stops once more than `size` agents are collected, and
    otherwise kept agents are appended.
   */
  function ScanFrom(strategy: Strategy, net: Net, agent: nat, size: int, i: nat, acc: seq<nat>): seq<nat>
    requires ValidNet(net) && agent < |net.agents| && i <= |net.agents|
    decreases |net.agents| - i
  {
    if i == |net.agents| then acc
    else if i == agent then ScanFrom(strategy, net, agent, size, i + 1, acc)
    else if |acc| > size then acc
    else ScanFrom(strategy, net, agent, size, i + 1, if Keeps(strategy, net, agent, i) then acc + [i] else acc)
  }

  /**
    The scan only appends: what was collected stays in front, and every
    agent added is a later agent, not the requester, that the filter keeps.
   */
  lemma {:induction false} ScanFromKept(strategy: Strategy, net: Net, agent: nat, size: int, i: nat, acc: seq<nat>)
    requires ValidNet(net) && agent < |net.agents| && i <= |net.agents|
    ensures var r := ScanFrom(strategy, net, agent, size, i, acc);
      && acc <= r
      && forall k :: |acc| <= k < |r| ==>
           i <= r[k] < |net.agents| && r[k] != agent && Keeps(strategy, net, agent, r[k])
    decreases |net.agents| - i
  {
    if i < |net.agents| && (i == agent || |acc| <= size) {
      var acc' := if i != agent && Keeps(strategy, net, agent, i) then acc + [i] else acc;
      ScanFromKept(strategy, net, agent, size, i + 1, acc');
    }
  }

  /** Reference definition: every agent from index `i` on, other than the requester, that the filter keeps. */
  function Qualifying(strategy: Strategy, net: Net, agent: nat, i: nat): (q: seq<nat>)
    requires ValidNet(net) && agent < |net.agents| && i <= |net.agents|
    decreases |net.agents| - i
  {
    if i == |net.agents| then []
    else if i != agent && Keeps(strategy, net, agent, i) then [i] + Qualifying(strategy, net, agent, i + 1)
    else Qualifying(strategy, net, agent, i + 1)
  }

  /** How many results the scan admits: `size + 1`, because it stops only once the count EXCEEDS `size`. */
  function Bound(size: int): nat {
    Max(size + 1, 0)
  }

  function Take(q: seq<nat>, k: nat): seq<nat> {
    q[..Min(|q|, k)]
  }

  /**
    The scan returns exactly the first `size + 1` qualifying agents in list
    order (all of them if there are fewer).
   */
  lemma {:induction false} ScanIsTake(strategy: Strategy, net: Net, agent: nat, size: int, i: nat, acc: seq<nat>)
    requires ValidNet(net) && agent < |net.agents| && i <= |net.agents| && |acc| <= Bound(size)
    ensures ScanFrom(strategy, net, agent, size, i, acc) ==
            acc + Take(Qualifying(strategy, net, agent, i), Bound(size) - |acc|)
    decreases |net.agents| - i
  {
    var q := Qualifying(strategy, net, agent, i);
    if i == |net.agents| {
    } else if i == agent {
      ScanIsTake(strategy, net, agent, size, i + 1, acc);
    } else if |acc| > size {
      assert Bound(size) - |acc| == 0;
    } else if Keeps(strategy, net, agent, i) {
      ScanIsTake(strategy, net, agent, size, i + 1, acc + [i]);
      var q1 := Qualifying(strategy, net, agent, i + 1);
      assert q == [i] + q1;
      var k := Bound(size) - |acc|;
      assert Take(q, k) == [i] + Take(q1, k - 1);
    } else {
      ScanIsTake(strategy, net, agent, size, i + 1, acc);
    }
  }

  /** Every qualifying agent is an agent other than the requester that the filter keeps, in increasing order. */
  lemma {:induction false} QualifyingFacts(strategy: Strategy, net: Net, agent: nat, i: nat)
    requires ValidNet(net) && agent < |net.agents| && i <= |net.agents|
    ensures forall j :: 0 <= j < |Qualifying(strategy, net, agent, i)| ==>
      && i <= Qualifying(strategy, net, agent, i)[j] < |net.agents|
      && Qualifying(strategy, net, agent, i)[j] != agent
      && Keeps(strategy, net, agent, Qualifying(strategy, net, agent, i)[j])
    ensures forall j, k :: 0 <= j < k < |Qualifying(strategy, net, agent, i)| ==>
      Qualifying(strategy, net, agent, i)[j] < Qualifying(strategy, net, agent, i)[k]
    decreases |net.agents| - i
  {
    if i < |net.agents| {
      QualifyingFacts(strategy, net, agent, i + 1);
      var q1 := Qualifying(strategy, net, agent, i + 1);
      var q := Qualifying(strategy, net, agent, i);
      if i != agent && Keeps(strategy, net, agent, i) {
        assert q == [i] + q1;
        assert forall j :: 1 <= j < |q| ==> q[j] == q1[j - 1];
      } else {
        assert q == q1;
      }
    }
  }

  /** Conversely, every agent the filter keeps, other than the requester, is qualifying. */
  lemma {:induction false} QualifyingComplete(strategy: Strategy, net: Net, agent: nat, i: nat, b: nat)
    requires ValidNet(net) && agent < |net.agents| && i <= b < |net.agents|
    requires b != agent && Keeps(strategy, net, agent, b)
    ensures b in Qualifying(strategy, net, agent, i)
    decreases |net.agents| - i
  {
    if i < b {
      QualifyingComplete(strategy, net, agent, i + 1, b);
    }
  }

  /** `recommendPolarize` / `recommendNeutralize`. */
  function RecommendScan(strategy: Strategy, net: Net, agent: nat, size: int): (r: seq<nat>)
    requires ValidNet(net) && agent < |net.agents|
    ensures r == Take(Qualifying(strategy, net, agent, 0), Bound(size))
    ensures |r| <= Bound(size)
    ensures forall j :: 0 <= j < |r| ==> r[j] < |net.agents| && r[j] != agent && Keeps(strategy, net, agent, r[j])
    ensures forall j, k :: 0 <= j < k < |r| ==> r[j] < r[k]
  {
    ScanIsTake(strategy, net, agent, size, 0, []);
    QualifyingFacts(strategy, net, agent, 0);
    ScanFrom(strategy, net, agent, size, 0, [])
  }

  /** When the scan did not reach its bound, it returned every agent the filter keeps. */
  lemma RecommendScanComplete(strategy: Strategy, net: Net, agent: nat, size: int, b: nat)
    requires ValidNet(net) && agent < |net.agents| && b < |net.agents| && b != agent
    requires Keeps(strategy, net, agent, b)
    requires |RecommendScan(strategy, net, agent, size)| < Bound(size)
    ensures b in RecommendScan(strategy, net, agent, size)
  {
    QualifyingComplete(strategy, net, agent, 0, b);
  }

  /** Every POLARIZE result is another agent, not yet a neighbour, within weighted openness, and may connect. */
  lemma PolarizeResults(net: Net, agent: nat, size: int, j: nat)
    requires ValidNet(net) && agent < |net.agents|
    requires j < |RecommendScan(Polarize, net, agent, size)|
    ensures var b := RecommendScan(Polarize, net, agent, size)[j];
      && b < |net.agents| && b != agent
      && b !in net.adj[agent]
      && Abs(net.agents[b].belief - net.agents[agent].belief) < net.agents[agent].weightedOpenness
      && CanTwoConnect(net.adj, net.cap, agent, b)
  {
  }

  /** Every NEUTRALIZE result is another agent, strictly closer to 0.5, and within 0.1 in belief. */
  lemma NeutralizeResults(net: Net, agent: nat, size: int, j: nat)
    requires ValidNet(net) && agent < |net.agents|
    requires j < |RecommendScan(Neutralize, net, agent, size)|
    ensures var b := RecommendScan(Neutralize, net, agent, size)[j];
      && b < |net.agents| && b != agent
      && Abs(0.5 - net.agents[b].belief) < Abs(0.5 - net.agents[agent].belief)
      && Abs(net.agents[agent].belief - net.agents[b].belief) < 0.1
  {
  }

  // ---------------------------------------------------------------------
  // Dispatch

  /**
    `recommend`: dispatch on the three strategies. No strategy value reaches
    the unsupported-strategy exception; the only failure is the random
    strategy's endless loop when no other agent exists.
   */
  function Recommend(strategy: Strategy, net: Net, agent: nat, size: int, draw: nat -> nat): (r: Result<seq<nat>>)
    requires ValidNet(net) && agent < |net.agents|
    ensures r.Failure? <==> strategy == Random && size > 0 && |net.agents| < 2
    ensures r.Failure? ==> r.fault == NoOtherAgent
    ensures r.Success? ==> IdsInRange(r.value, |net.agents|) && agent !in r.value
    ensures strategy != Random ==> r.Success? && |r.value| <= Bound(size)
    ensures strategy == Random && r.Success? ==> |r.value| == Max(size, 0)
  {
    match strategy
    case Random => RecommendRandom(|net.agents|, agent, size, draw)
    case Polarize => Success(RecommendScan(Polarize, net, agent, size))
    case Neutralize => Success(RecommendScan(Neutralize, net, agent, size))
  }
}

=== FILE: text.dfy ===
/**
  The string handling of the agent-file loader (GraphModel.java:
  setAgentsFromFile): `String.strip()` and `String.split(",")`.
 */
module Text {

  /**
    `Character.isWhitespace` on the characters it accepts below U+0080:
    space, tab, line feed, vertical tab, form feed, carriage return and the
    four information separators U+001C..U+001F.
   */
  predicate IsWhitespace(c: char) {
    c == ' ' || c == '\t' || c == '\n' || c == '\U{0B}' || c == '\U{0C}' || c == '\r' ||
    ('\U{1C}' <= c <= '\U{1F}')
  }

  predicate AllWhitespace(s: string) {
    forall i :: 0 <= i < |s| ==> IsWhitespace(s[i])
  }

  /** The longest suffix of `s` that does not start with whitespace. */
  function StripLeading(s: string): (r: string)
    ensures |r| <= |s| && r == s[|s| - |r|..]
    ensures AllWhitespace(s[..|s| - |r|])
    ensures |r| > 0 ==> !IsWhitespace(r[0])
  {
    if |s| > 0 && IsWhitespace(s[0]) then StripLeading(s[1..]) else s
  }

  /** The longest prefix of `s` that does not end with whitespace. */
  function StripTrailing(s: string): (r: string)
    ensures |r| <= |s| && r == s[..|r|]
    ensures AllWhitespace(s[|r|..])
    ensures |r| > 0 ==> !IsWhitespace(r[|r| - 1])
  {
    if |s| > 0 && IsWhitespace(s[|s| - 1]) then StripTrailing(s[..|s| - 1]) else s
  }

  /** `s.strip()`: leading and trailing whitespace removed; nothing is left exactly when all of `s` is whitespace. */
  function Strip(s: string): (r: string)
    ensures |r| <= |s|
    ensures r == [] <==> AllWhitespace(s)
  {
    var l := StripLeading(s);
    var r := StripTrailing(l);
    var i := |s| - |l|;
    assert l == s[i..];
    if |r| == 0 then
      assert AllWhitespace(s) by {
        assert l[0..] == l;
        assert |l| == 0;
        assert s[..i] == s;
      }
      r
    else
      assert !IsWhitespace(s[i]) by {
        assert r[0] == l[0];
      }
      r
  }

  /**
    `strip` takes off exactly a whitespace prefix and a whitespace suffix,
    and what remains neither starts nor ends with whitespace.
   */
  lemma StripShape(s: string)
    ensures exists i, j :: 0 <= i <= j <= |s| && Strip(s) == s[i..j] && AllWhitespace(s[..i]) && AllWhitespace(s[j..])
    ensures |Strip(s)| > 0 ==> !IsWhitespace(Strip(s)[0]) && !IsWhitespace(Strip(s)[|Strip(s)| - 1])
  {
    var l := StripLeading(s);
    var r := StripTrailing(l);
    var i := |s| - |l|;
    var j := i + |r|;
    assert Strip(s) == r;
    assert r == s[i..j] by {
      assert l == s[i..] && r == l[..|r|];
    }
    assert AllWhitespace(s[j..]) by {
      assert l == s[i..] && l[|r|..] == s[j..];
    }
    assert AllWhitespace(s[..i]) by {
      assert AllWhitespace(s[..|s| - |l|]);
    }
    if |r| > 0 {
      assert r[0] == l[0];
    }
    assert 0 <= i <= j <= |s| && Strip(s) == s[i..j] && AllWhitespace(s[..i]) && AllWhitespace(s[j..]);
  }

  /** Stripping twice is stripping once. */
  lemma StripIdempotent(s: string)
    ensures Strip(Strip(s)) == Strip(s)
  {
    var t := Strip(s);
    StripShape(s);
    if |t| > 0 {
      assert StripLeading(t) == t;
      assert StripTrailing(t) == t;
    }
  }

  // ---------------------------------------------------------------------
  // split(",")

  /** Every piece between commas, including empty ones: `n` commas give `n + 1` pieces. */
  function Pieces(s: string): (r: seq<string>)
    ensures |r| >= 1
    decreases |s|
  {
    if |s| == 0 then [""]
    else if s[0] == ',' then [""] + Pieces(s[1..])
    else
      var t := Pieces(s[1..]);
      [[s[0]] + t[0]] + t[1..]
  }

  /** The pieces joined with commas. */
  function Join(parts: seq<string>): string
    requires |parts| >= 1
  {
    if |parts| == 1 then parts[0] else parts[0] + "," + Join(parts[1..])
  }

  /** Splitting at every comma loses nothing: joining the pieces gives back the string, and no piece holds a comma. */
  lemma {:induction false} PiecesJoin(s: string)
    ensures Join(Pieces(s)) == s
    ensures forall i :: 0 <= i < |Pieces(s)| ==> ',' !in Pieces(s)[i]
    decreases |s|
  {
    if |s| > 0 {
      PiecesJoin(s[1..]);
      var t := Pieces(s[1..]);
      if s[0] == ',' {
        assert Pieces(s)[1..] == t;
      } else {
        var r := Pieces(s);
        assert r[1..] == t[1..];
        if |t| == 1 {
          assert Join(r) == [s[0]] + t[0];
        } else {
          assert Join(r) == [s[0]] + t[0] + "," + Join(t[1..]);
          assert Join(t) == t[0] + "," + Join(t[1..]);
        }
        assert s == [s[0]] + s[1..];
        forall i | 0 <= i < |r|
          ensures ',' !in r[i]
        {
          if i > 0 {
            assert r[i] == t[i];
          }
        }
      }
    }
  }

  /** Trailing empty pieces dropped. */
  function DropTrailingEmpty(parts: seq<string>): (r: seq<string>)
    ensures |r| <= |parts| && r == parts[..|r|]
    ensures forall i :: |r| <= i < |parts| ==> parts[i] == ""
    ensures |r| > 0 ==> r[|r| - 1] != ""
  {
    if |parts| > 0 && parts[|parts| - 1] == "" then DropTrailingEmpty(parts[..|parts| - 1]) else parts
  }

  /**
    `s.split(",")`: the pieces between commas with trailing empty pieces
    dropped, except that a string without a comma yields itself as the only
    piece (so "" gives [""] while "," gives []).
   */
  function Split(s: string): (r: seq<string>)
    ensures forall k :: 0 <= k < |r| ==> ',' !in r[k]
    ensures ',' in s && |r| > 0 ==> r[|r| - 1] != ""
  {
    if ',' !in s then [s]
    else
      PiecesJoin(s);
      DropTrailingEmpty(Pieces(s))
  }

  /** A string without a comma is one piece. */
  lemma {:induction false} NoCommaOnePiece(s: string)
    requires ',' !in s
    ensures Pieces(s) == [s]
    decreases |s|
  {
    if |s| > 0 {
      NoCommaOnePiece(s[1..]);
      assert s == [s[0]] + s[1..];
    }
  }

  /**
    `split` drops only empty pieces at the end: the pieces it returns,
    followed by some empty pieces, join back to the string.
   */
  lemma SplitJoin(s: string)
    ensures exists k: nat :: |Split(s)| + k >= 1 && Join(Split(s) + Empties(k)) == s
  {
    PiecesJoin(s);
    if ',' !in s {
      assert Split(s) + Empties(0) == [s];
    } else {
      var p := Pieces(s);
      var r := DropTrailingEmpty(p);
      var k := |p| - |r|;
      assert r + Empties(k) == p;
    }
  }

  function Empties(k: nat): (r: seq<string>)
    ensures |r| == k && forall i :: 0 <= i < k ==> r[i] == ""
  {
    seq(k, _ => "")
  }
}

=== FILE: topology.dfy ===
/**
  Building the initial network (GraphPhysicsModel.java: createNodes,
  connectProportionate, createLoops, setupNetworkStructure).

  The graph is grown as a tree by preferential attachment: every agent after
  the first two is attached to one existing agent, chosen with weight equal to
  its degree among the agents that have not reached their individual limit.
  Dead ends are then paired up to close loops.
 */
module Topology {
  import opened Graph
  import opened Agents
  import opened Outcome

  // ---------------------------------------------------------------------
  // createNodes

  /** The traits the `Node` constructor draws for a new agent. */
  datatype Traits = Traits(
    belief: real,
    openness: real,
    dissonanceThreshold: real,
    individualLimit: nat,
    weightedOpenness: real)

  /** `new Node(id)`: drawn traits, no dissonance, empty confidence set, no contacts. */
  function NewNode(id: nat, t: Traits): Agent {
    Agent(id, t.belief, t.openness, t.dissonanceThreshold, 0.0, [], 0, 0, t.individualLimit, t.weightedOpenness)
  }

  /** `count` constructor calls, each taking the id `next` and then advancing it. */
  function AddNodes(agents: seq<Agent>, next: nat, count: nat, traits: nat -> Traits): (seq<Agent>, nat)
    decreases count
  {
    if count == 0 then (agents, next)
    else AddNodes(agents + [NewNode(next, traits(next))], next + 1, count - 1, traits)
  }

  lemma {:induction false} AddNodesFacts(agents: seq<Agent>, next: nat, count: nat, traits: nat -> Traits)
    ensures |AddNodes(agents, next, count, traits).0| == |agents| + count
    ensures AddNodes(agents, next, count, traits).1 == next + count
    ensures forall i :: 0 <= i < |agents| ==> AddNodes(agents, next, count, traits).0[i] == agents[i]
    ensures forall i :: |agents| <= i < |agents| + count ==>
      AddNodes(agents, next, count, traits).0[i] == NewNode(next + (i - |agents|), traits(next + (i - |agents|)))
    decreases count
  {
    if count > 0 {
      var agents' := agents + [NewNode(next, traits(next))];
      AddNodesFacts(agents', next + 1, count - 1, traits);
    }
  }

  /**
    `createNodes(numNodes)`: the node list is cleared and the id counter reset,
    then `numNodes` fresh agents are created with ids 0, 1, ... (none when
    `numNodes` is not positive). Returns the agents and the next free id. The
    source's `assert numNodes > 5` is not enforced at run time.
   */
  function CreateNodes(numNodes: int, traits: nat -> Traits): (r: (seq<Agent>, nat))
    ensures |r.0| == Max(numNodes, 0) && r.1 == |r.0|
    ensures forall i :: 0 <= i < |r.0| ==>
      && r.0[i].id == i
      && r.0[i].belief == traits(i).belief
      && r.0[i].openness == traits(i).openness
      && r.0[i].dissonanceThreshold == traits(i).dissonanceThreshold
      && r.0[i].individualLimit == traits(i).individualLimit
      && r.0[i].weightedOpenness == traits(i).weightedOpenness
      && r.0[i].currentDissonance == 0.0
      && r.0[i].confidenceSet == []
      && r.0[i].numberOfContacts == 0
      && r.0[i].numberOfConflicts == 0
  {
    var count := if numNodes > 0 then numNodes else 0;
    AddNodesFacts([], 0, count, traits);
    AddNodes([], 0, count, traits)
  }

  // ---------------------------------------------------------------------
  // connectProportionate

  /** The individual connection limit of every agent, by id. */
  function Limits(agents: seq<Agent>): (limits: seq<nat>)
    ensures |limits| == |agents|
    ensures forall i :: 0 <= i < |agents| ==> limits[i] == agents[i].individualLimit
  {
    seq(|agents|, i requires 0 <= i < |agents| => agents[i].individualLimit)
  }

  /** How much agent `i` counts in the draw: its degree, or 0 once it is at its individual limit. */
  function Weight(adj: Adj, limits: seq<nat>, i: nat): nat
    requires |limits| == |adj| && i < |adj|
  {
    if |adj[i]| != limits[i] then |adj[i]| else 0
  }

  /** Total weight of agents `i` and later. */
  function NonFullSum(adj: Adj, limits: seq<nat>, i: nat): nat
    requires |limits| == |adj|
    decreases |adj| - i
  {
    if i >= |adj| then 0 else Weight(adj, limits, i) + NonFullSum(adj, limits, i + 1)
  }

  /**
    The selection loop of `connectProportionate` from agent `i` on: subtract
    each agent's weight from `selected` and stop at the first agent that
    makes it negative. `None` when the loop runs off the end.
   */
  function Walk(adj: Adj, limits: seq<nat>, selected: int, i: nat): (r: Option<nat>)
    requires |limits| == |adj|
    ensures r.Some? ==> i <= r.value < |adj|
    decreases |adj| - i
  {
    if i >= |adj| then None
    else if selected - Weight(adj, limits, i) < 0 then Some(i)
    else Walk(adj, limits, selected - Weight(adj, limits, i), i + 1)
  }

  lemma {:induction false} NonFullSumMonotone(adj: Adj, limits: seq<nat>, i: nat, v: nat)
    requires |limits| == |adj| && i <= v
    ensures NonFullSum(adj, limits, v) <= NonFullSum(adj, limits, i)
    decreases v - i
  {
    if i < v && i < |adj| {
      NonFullSumMonotone(adj, limits, i + 1, v);
    }
  }

  /**
    The selection is proportionate: for a draw `selected` in `0 .. total`,
    agent `v` is chosen exactly for the `Weight(v)` draws between the weight
    of the agents before it and that weight plus its own.
   */
  lemma {:induction false} WalkSelects(adj: Adj, limits: seq<nat>, selected: int, i: nat, v: nat)
    requires |limits| == |adj| && selected >= 0
    ensures Walk(adj, limits, selected, i) == Some(v) <==>
      && i <= v < |adj|
      && NonFullSum(adj, limits, i) - NonFullSum(adj, limits, v) <= selected
      && selected < NonFullSum(adj, limits, i) - NonFullSum(adj, limits, v + 1)
    decreases |adj| - i
  {
    if i < |adj| {
      if v > i {
        NonFullSumMonotone(adj, limits, i + 1, v);
      }
      if selected - Weight(adj, limits, i) >= 0 {
        WalkSelects(adj, limits, selected - Weight(adj, limits, i), i + 1, v);
      }
    }
  }

  /** A draw below the total weight always selects some agent, and that agent has positive weight. */
  lemma {:induction false} WalkFinds(adj: Adj, limits: seq<nat>, selected: int, i: nat)
    requires |limits| == |adj| && 0 <= selected < NonFullSum(adj, limits, i)
    ensures Walk(adj, limits, selected, i).Some?
    ensures Weight(adj, limits, Walk(adj, limits, selected, i).value) > 0
    decreases |adj| - i
  {
    if selected - Weight(adj, limits, i) >= 0 {
      WalkFinds(adj, limits, selected - Weight(adj, limits, i), i + 1);
    }
  }

  /**
    The attachment loop for agents `k` and later, in list order. `total` is
    the running `totalConnections`; `draw(k)` is the random number drawn for
    agent `k`, reduced to `0 .. total`. A selection loop that finds nothing
    leaves the index at 0. A non-positive `total` makes `nextInt` throw.
   */
  function Attach(adj: Adj, limits: seq<nat>, cap: int, draw: nat -> nat, k: nat, total: int): (r: (Adj, Option<Fault>))
    requires |limits| == |adj| && 2 <= k <= |adj|
    ensures |r.0| == |adj|
    ensures r.1 == None || r.1 == Some(IllegalArgument)
    ensures Growing(adj, limits, k, total) && LimitsFit(limits, cap) ==>
      r.1 == None && Shape(r.0, limits, |limits|)
    decreases |adj| - k
  {
    if k == |adj| then (adj, None)
    else if total <= 0 then
      AttachPositive(adj, limits, cap, k, total);
      (adj, Some(IllegalArgument))
    else
      var target := Target(adj, limits, draw(k) % total);
      var adj' := AddNeighbour(adj, cap, target, k);
      AttachAdvances(adj, limits, cap, k, total, draw(k) % total);
      Attach(adj', limits, cap, draw, k + 1, NextTotal(adj', limits, target, total))
  }

  /** The selected agent, or agent 0 when the selection loop finds none. */
  function Target(adj: Adj, limits: seq<nat>, selected: int): (v: nat)
    requires |limits| == |adj| && |adj| > 0
    ensures v < |adj|
  {
    match Walk(adj, limits, selected, 0)
    case Some(v) => v
    case None => 0
  }

  /** `totalConnections` after an attachment to `target`: plus 2, minus the limit if `target` became full. */
  function NextTotal(adj: Adj, limits: seq<nat>, target: nat, total: int): int
    requires |limits| == |adj| && target < |adj|
  {
    total + 2 - (if |adj[target]| == limits[target] then limits[target] else 0)
  }

  /**
    `connectProportionate`: agents 0 and 1 are joined, `totalConnections`
    starts at 2, and every later agent is attached in list order. With fewer
    than two agents the source indexes past the end of the list.
   */
  function ConnectProportionate(limits: seq<nat>, cap: int, draw: nat -> nat): (r: (Adj, Option<Fault>))
    ensures |r.0| == |limits|
    ensures r.1 == Some(IndexOutOfBounds) <==> |limits| < 2
    ensures r.1 == None || r.1 == Some(IndexOutOfBounds) || r.1 == Some(IllegalArgument)
    ensures |limits| < 2 ==> r.0 == Empty(|limits|)
  {
    var n := |limits|;
    if n < 2 then (Empty(n), Some(IndexOutOfBounds))
    else Attach(AddNeighbour(Empty(n), cap, 0, 1), limits, cap, draw, 2, 2)
  }

  // ---------------------------------------------------------------------
  // The grown graph is a spanning tree

  /**
    Every individual limit lies between 2 and the global cap. Under this
    condition no attachment is refused and no agent that is still to receive
    its first edge is ever full.
   */
  predicate LimitsFit(limits: seq<nat>, cap: int) {
    forall j :: 0 <= j < |limits| ==> 2 <= limits[j] <= cap
  }

  /** `p` is a walk along edges of `adj` from agent 0 to agent `v`. */
  ghost predicate WalkFromRoot(adj: Adj, p: seq<nat>, v: nat) {
    && |p| >= 1 && p[0] == 0 && p[|p| - 1] == v
    && (forall i :: 0 <= i < |p| ==> p[i] < |adj|)
    && (forall i :: 0 <= i < |p| - 1 ==> p[i + 1] in adj[p[i]])
  }

  ghost predicate Reachable(adj: Adj, v: nat) {
    exists p :: WalkFromRoot(adj, p, v)
  }

  /** Every agent can be reached from agent 0. */
  ghost predicate Connected(adj: Adj) {
    forall v :: 0 <= v < |adj| ==> Reachable(adj, v)
  }

  /** A connected simple graph with exactly `n - 1` edges: a spanning tree. */
  ghost predicate SpanningTree(adj: Adj) {
    && |adj| >= 1
    && Simple(adj)
    && Connected(adj)
    && DegreeSum(adj) == 2 * (|adj| - 1)
  }

  /** Every agent other than 0 was attached to an earlier agent, which is its first neighbour. */
  predicate HasParents(adj: Adj, k: nat)
    requires k <= |adj|
  {
    forall j :: 1 <= j < k ==> |adj[j]| >= 1 && adj[j][0] < j
  }

  /** The state after agents `0 .. k-1` are attached. */
  ghost predicate Shape(adj: Adj, limits: seq<nat>, k: nat) {
    && |limits| == |adj| && 2 <= k <= |adj|
    && Simple(adj)
    && (forall j :: k <= j < |adj| ==> adj[j] == [])
    && (forall j :: 0 <= j < k ==> 1 <= |adj[j]| <= limits[j])
    && HasParents(adj, k)
    && DegreeSum(adj) == 2 * (k - 1)
  }

  /** The loop invariant: the shape, and `totalConnections` equals the weight of all agents. */
  ghost predicate Growing(adj: Adj, limits: seq<nat>, k: nat, total: int) {
    && Shape(adj, limits, k)
    && total == NonFullSum(adj, limits, 0)
  }

  /** Replacing one agent's list changes the total weight by the change in that agent's weight. */
  lemma {:induction false} NonFullSumUpdate(adj: Adj, limits: seq<nat>, i: nat, x: nat, s: seq<nat>)
    requires |limits| == |adj| && x < |adj|
    ensures NonFullSum(adj[x := s], limits, i) ==
      NonFullSum(adj, limits, i) +
      (if i <= x then Weight(adj[x := s], limits, x) - Weight(adj, limits, x) else 0)
    decreases |adj| - i
  {
    if i < |adj| {
      NonFullSumUpdate(adj, limits, i + 1, x, s);
    }
  }

  /**
    When every attached agent is full, the degree sum is at least twice the
    number of attached agents from `i` on.
   */
  lemma {:induction false} AllFullDegrees(adj: Adj, limits: seq<nat>, k: nat, i: nat)
    requires Shape(adj, limits, k)
    requires forall j :: 0 <= j < |limits| ==> limits[j] >= 2
    requires NonFullSum(adj, limits, i) == 0
    ensures DegreesFrom(adj, i) >= 2 * (k - i)
    decreases |adj| - i
  {
    if i < |adj| {
      AllFullDegrees(adj, limits, k, i + 1);
    }
  }

  /** While agents remain to be attached, the total weight is positive. */
  lemma NonFullPositive(adj: Adj, limits: seq<nat>, k: nat)
    requires Shape(adj, limits, k) && forall j :: 0 <= j < |limits| ==> limits[j] >= 2
    ensures NonFullSum(adj, limits, 0) > 0
  {
    if NonFullSum(adj, limits, 0) == 0 {
      AllFullDegrees(adj, limits, k, 0);
    }
  }

  /** Joining agent `k`, still unattached, to a non-full agent `v` adds two to the degree sum and moves the total weight as `NextTotal` does. */
  lemma AttachCounts(adj: Adj, limits: seq<nat>, v: nat, k: nat)
    requires |limits| == |adj| && v < k < |adj| && adj[k] == [] && |adj[v]| < limits[v] && limits[k] >= 2
    ensures var adj' := adj[v := adj[v] + [k]][k := [v]];
      && DegreeSum(adj') == DegreeSum(adj) + 2
      && NonFullSum(adj', limits, 0) == NextTotal(adj', limits, v, NonFullSum(adj, limits, 0))
  {
    var adj1 := adj[v := adj[v] + [k]];
    DegreesFromUpdate(adj, 0, v, adj[v] + [k]);
    DegreesFromUpdate(adj1, 0, k, [v]);
    NonFullSumUpdate(adj, limits, 0, v, adj[v] + [k]);
    NonFullSumUpdate(adj1, limits, 0, k, [v]);
  }

  /** One attachment keeps the invariant: `total` stays the total weight. */
  lemma AttachStep(adj: Adj, limits: seq<nat>, cap: int, k: nat, total: int, selected: int)
    requires Growing(adj, limits, k, total) && LimitsFit(limits, cap) && k < |adj|
    requires 0 <= selected < total
    ensures Walk(adj, limits, selected, 0).Some?
    ensures var v := Target(adj, limits, selected);
      Growing(AddNeighbour(adj, cap, v, k), limits, k + 1, NextTotal(AddNeighbour(adj, cap, v, k), limits, v, total))
  {
    WalkFinds(adj, limits, selected, 0);
    var v := Walk(adj, limits, selected, 0).value;
    assert v < k;
    assert |adj[v]| < limits[v] <= cap;
    assert 2 <= limits[k] <= cap && adj[k] == [];
    assert k !in adj[v] by {
      assert v !in adj[k];
    }
    var adj' := AddNeighbour(adj, cap, v, k);
    var adj1 := adj[v := adj[v] + [k]];
    assert adj'[v] == adj[v] + [k] && adj'[k] == [v];
    assert adj' == adj1[k := [v]];
    assert Simple(adj') by {
      AddNeighbourSimple(adj, cap, v, k);
    }
    AttachCounts(adj, limits, v, k);
    assert forall j :: k + 1 <= j < |adj'| ==> adj'[j] == [];
    assert forall j :: 0 <= j < k + 1 ==> 1 <= |adj'[j]| <= limits[j] by {
      forall j | 0 <= j < k + 1
        ensures 1 <= |adj'[j]| <= limits[j]
      {
        if j != k && j != v {
          assert adj'[j] == adj[j];
        }
      }
    }
    assert HasParents(adj', k + 1) by {
      forall j | 1 <= j < k + 1
        ensures |adj'[j]| >= 1 && adj'[j][0] < j
      {
        if j != k && j != v {
          assert adj'[j] == adj[j];
        }
      }
    }
  }

  /** While agents remain to be attached under the invariant, `nextInt(totalConnections)` has a positive bound. */
  lemma AttachPositive(adj: Adj, limits: seq<nat>, cap: int, k: nat, total: int)
    requires |limits| == |adj| && 2 <= k < |adj|
    ensures Growing(adj, limits, k, total) && LimitsFit(limits, cap) ==> total > 0
  {
    if Growing(adj, limits, k, total) && LimitsFit(limits, cap) {
      NonFullPositive(adj, limits, k);
    }
  }

  /** One round of the attachment loop takes a state that keeps the invariant to the next such state. */
  lemma AttachAdvances(adj: Adj, limits: seq<nat>, cap: int, k: nat, total: int, selected: int)
    requires |limits| == |adj| && 2 <= k < |adj| && 0 <= selected < total
    ensures Growing(adj, limits, k, total) && LimitsFit(limits, cap) ==>
      var v := Target(adj, limits, selected);
      var adj' := AddNeighbour(adj, cap, v, k);
      Growing(adj', limits, k + 1, NextTotal(adj', limits, v, total))
  {
    if Growing(adj, limits, k, total) && LimitsFit(limits, cap) {
      AttachStep(adj, limits, cap, k, total, selected);
    }
  }

  /** Following first neighbours leads back to agent 0. */
  lemma {:induction false} PathUp(adj: Adj, v: nat) returns (p: seq<nat>)
    requires Symmetric(adj) && InRange(adj) && v < |adj| && HasParents(adj, |adj|)
    ensures WalkFromRoot(adj, p, v)
    decreases v
  {
    if v == 0 {
      p := [0];
    } else {
      var u := adj[v][0];
      var q := PathUp(adj, u);
      assert v in adj[u];
      p := q + [v];
      forall i | 0 <= i < |p| - 1
        ensures p[i + 1] in adj[p[i]]
      {
        if i < |q| - 1 {
          assert p[i] == q[i] && p[i + 1] == q[i + 1];
        }
      }
    }
  }

  lemma ParentsConnected(adj: Adj)
    requires Symmetric(adj) && InRange(adj) && HasParents(adj, |adj|)
    ensures Connected(adj)
  {
    forall v | 0 <= v < |adj|
      ensures Reachable(adj, v)
    {
      var p := PathUp(adj, v);
    }
  }

  /**
    With every individual limit between 2 and the cap, `connectProportionate`
    never throws and builds a spanning tree: every agent other than 0 has an
    earlier agent as its first neighbour, and no agent exceeds its limit.
   */
  lemma ConnectProportionateTree(limits: seq<nat>, cap: int, draw: nat -> nat)
    requires |limits| >= 2 && LimitsFit(limits, cap)
    ensures ConnectProportionate(limits, cap, draw).1 == None
    ensures SpanningTree(ConnectProportionate(limits, cap, draw).0)
    ensures HasParents(ConnectProportionate(limits, cap, draw).0, |limits|)
    ensures forall j :: 0 <= j < |limits| ==>
      |ConnectProportionate(limits, cap, draw).0[j]| <= limits[j]
  {
    var n := |limits|;
    var e := Empty(n);
    EmptyIsSimple(n);
    var adj := AddNeighbour(e, cap, 0, 1);
    assert 2 <= limits[0] <= cap && 2 <= limits[1] <= cap;
    assert adj[0] == [1] && adj[1] == [0];
    assert adj == e[0 := [1]][1 := [0]];
    AddNeighbourSimple(e, cap, 0, 1);
    DegreesFromUpdate(e, 0, 0, [1]);
    DegreesFromUpdate(e[0 := [1]], 0, 1, [0]);
    NonFullSumUpdate(e, limits, 0, 0, [1]);
    NonFullSumUpdate(e[0 := [1]], limits, 0, 1, [0]);
    EmptyNonFull(e, limits, 0);
    assert Growing(adj, limits, 2, 2);
    var r := ConnectProportionate(limits, cap, draw).0;
    ParentsConnected(r);
  }

  lemma {:induction false} EmptyNonFull(adj: Adj, limits: seq<nat>, i: nat)
    requires |limits| == |adj| && forall j :: 0 <= j < |adj| ==> adj[j] == []
    ensures NonFullSum(adj, limits, i) == 0
    decreases |adj| - i
  {
    if i < |adj| {
      EmptyNonFull(adj, limits, i + 1);
    }
  }

  // ---------------------------------------------------------------------
  // createLoops

  /** The dead ends, in list order: agents with exactly one neighbour and an individual limit above 1. */
  function Pool(adj: Adj, limits: seq<nat>, i: nat): (r: seq<nat>)
    requires |limits| == |adj|
    ensures forall x :: x in r <==> i <= x < |adj| && |adj[x]| == 1 && limits[x] > 1
    ensures NoDup(r)
    decreases |adj| - i
  {
    if i >= |adj| then []
    else if |adj[i]| == 1 && limits[i] > 1 then [i] + Pool(adj, limits, i + 1)
    else Pool(adj, limits, i + 1)
  }

  /**
    Both picks of one round: the first is uniform over the pool; the second
    draw is repeated until it names a different member, so it is one of the
    other members.
   */
  function PickPair(pool: seq<nat>, d: (nat, nat)): (r: (nat, nat))
    requires |pool| >= 2
    ensures r.0 < |pool| && r.1 < |pool| && r.0 != r.1
  {
    var i := d.0 % |pool|;
    (i, (i + 1 + d.1 % (|pool| - 1)) % |pool|)
  }

  /**
    The pairing loop: while two dead ends remain, join a random pair and drop
    both from the pool. Returns the graph and what is left of the pool.
   */
  function PairUp(adj: Adj, cap: int, pool: seq<nat>, pick: nat -> (nat, nat), round: nat): (r: (Adj, seq<nat>))
    requires Members(pool, |adj|)
    ensures |r.0| == |adj|
    ensures EdgesKept(adj, r.0)
    ensures |r.1| < 2 && forall x :: x in r.1 ==> x in pool
    decreases |pool|
  {
    if |pool| < 2 then (adj, pool)
    else
      var ij := PickPair(pool, pick(round));
      var a := pool[ij.0];
      var b := pool[ij.1];
      assert a in pool && b in pool;
      PairUp(AddNeighbour(adj, cap, a, b), cap, DropPair(pool, a, b), pick, round + 1)
  }

  predicate Members(pool: seq<nat>, n: nat) {
    forall x :: x in pool ==> x < n
  }

  /** The two `remove(Object)` calls of one round. */
  function DropPair(pool: seq<nat>, a: nat, b: nat): (r: seq<nat>)
    requires a in pool
    ensures |r| < |pool|
    ensures forall y :: y in r ==> y in pool
  {
    RemoveFirstFacts(pool, a);
    RemoveFirstFacts(RemoveFirst(pool, a), b);
    RemoveFirst(RemoveFirst(pool, a), b)
  }

  /** `createLoops` on the graph `adj`. */
  function CreateLoops(adj: Adj, limits: seq<nat>, cap: int, pick: nat -> (nat, nat)): (r: Adj)
    requires |limits| == |adj|
    ensures |r| == |adj|
    ensures EdgesKept(adj, r)
  {
    PairUp(adj, cap, Pool(adj, limits, 0), pick, 0).0
  }

  /** The pairing loop's invariant: distinct pool members, each a dead end whose limit allows one more edge. */
  predicate PoolOk(adj: Adj, limits: seq<nat>, pool: seq<nat>)
    requires |limits| == |adj|
  {
    && Members(pool, |adj|)
    && NoDup(pool)
    && forall x :: x in pool ==> |adj[x]| == 1 && limits[x] >= 2
  }

  /** Dropping two distinct members removes exactly those two. */
  lemma DropPairFacts(pool: seq<nat>, a: nat, b: nat)
    requires NoDup(pool) && a in pool && b in pool && a != b
    ensures NoDup(DropPair(pool, a, b))
    ensures |DropPair(pool, a, b)| == |pool| - 2
    ensures forall x :: x in DropPair(pool, a, b) <==> x in pool && x != a && x != b
  {
    var pool1 := RemoveFirst(pool, a);
    RemoveFirstFacts(pool, a);
    RemoveFirstFacts(pool1, b);
    InRemoveFirst(pool, a, b);
    forall x
      ensures x in DropPair(pool, a, b) <==> x in pool && x != a && x != b
    {
      InRemoveFirst(pool1, b, x);
      InRemoveFirst(pool, a, x);
    }
  }

  /** One round of the pairing loop keeps the invariant. */
  lemma PairStep(adj: Adj, limits: seq<nat>, cap: int, pool: seq<nat>, a: nat, b: nat)
    requires |limits| == |adj| && Simple(adj) && PoolOk(adj, limits, pool)
    requires forall x :: 0 <= x < |adj| ==> |adj[x]| <= limits[x]
    requires a in pool && b in pool && a != b
    ensures var adj' := AddNeighbour(adj, cap, a, b);
      && Simple(adj')
      && EdgesKept(adj, adj')
      && (forall x :: 0 <= x < |adj| ==> |adj'[x]| <= limits[x])
      && PoolOk(adj', limits, DropPair(pool, a, b))
  {
    AddNeighbourSimple(adj, cap, a, b);
    DropPairFacts(pool, a, b);
  }

  /**
    The pairing loop keeps the graph simple, only adds edges, and keeps
    every agent within its individual limit.
   */
  lemma {:induction false} PairUpSimple(adj: Adj, limits: seq<nat>, cap: int, pool: seq<nat>, pick: nat -> (nat, nat), round: nat)
    requires |limits| == |adj| && Simple(adj) && PoolOk(adj, limits, pool)
    requires forall x :: 0 <= x < |adj| ==> |adj[x]| <= limits[x]
    ensures Simple(PairUp(adj, cap, pool, pick, round).0)
    ensures EdgesKept(adj, PairUp(adj, cap, pool, pick, round).0)
    ensures forall x :: 0 <= x < |adj| ==> |PairUp(adj, cap, pool, pick, round).0[x]| <= limits[x]
    decreases |pool|
  {
    if |pool| >= 2 {
      var ij := PickPair(pool, pick(round));
      var a := pool[ij.0];
      var b := pool[ij.1];
      assert a in pool && b in pool && a != b;
      var adj' := AddNeighbour(adj, cap, a, b);
      var pool2 := DropPair(pool, a, b);
      PairStep(adj, limits, cap, pool, a, b);
      PairUpSimple(adj', limits, cap, pool2, pick, round + 1);
      assert PairUp(adj, cap, pool, pick, round) == PairUp(adj', cap, pool2, pick, round + 1);
    }
  }

  /** Every edge of `adj'` that `adj` lacks joins two members of `pool`. */
  ghost predicate AddedWithin(adj: Adj, adj': Adj, pool: seq<nat>)
    requires |adj| == |adj'|
  {
    forall x, j :: 0 <= x < |adj| && 0 <= j < |adj'[x]| && adj'[x][j] !in adj[x] ==>
      x in pool && adj'[x][j] in pool
  }

  /** `addNeighbour(a, b)` adds no edge other than the one between `a` and `b`. */
  lemma AddNeighbourWithin(adj: Adj, cap: int, a: nat, b: nat)
    requires a < |adj| && b < |adj| && a != b
    ensures AddedWithin(adj, AddNeighbour(adj, cap, a, b), [a, b])
  {
  }

  lemma AddedWithinTrans(adj: Adj, adj': Adj, adj'': Adj, p: seq<nat>, q: seq<nat>, pool: seq<nat>)
    requires |adj| == |adj'| == |adj''|
    requires AddedWithin(adj, adj', p) && AddedWithin(adj', adj'', q)
    requires forall x :: x in p ==> x in pool
    requires forall x :: x in q ==> x in pool
    ensures AddedWithin(adj, adj'', pool)
  {
    forall x, j | 0 <= x < |adj| && 0 <= j < |adj''[x]| && adj''[x][j] !in adj[x]
      ensures x in pool && adj''[x][j] in pool
    {
      var y := adj''[x][j];
      if y in adj'[x] {
        var i :| 0 <= i < |adj'[x]| && adj'[x][i] == y;
        assert x in p && y in p;
      } else {
        assert x in q && y in q;
      }
    }
  }

  /** Every edge the pairing loop adds joins two pool members. */
  lemma {:induction false} PairUpPairs(adj: Adj, cap: int, pool: seq<nat>, pick: nat -> (nat, nat), round: nat)
    requires Members(pool, |adj|) && NoDup(pool)
    ensures AddedWithin(adj, PairUp(adj, cap, pool, pick, round).0, pool)
    decreases |pool|
  {
    if |pool| >= 2 {
      var ij := PickPair(pool, pick(round));
      var a := pool[ij.0];
      var b := pool[ij.1];
      assert a in pool && b in pool && a != b;
      var adj' := AddNeighbour(adj, cap, a, b);
      var pool2 := DropPair(pool, a, b);
      DropPairFacts(pool, a, b);
      PairUpPairs(adj', cap, pool2, pick, round + 1);
      var r := PairUp(adj', cap, pool2, pick, round + 1).0;
      assert PairUp(adj, cap, pool, pick, round).0 == r;
      AddNeighbourWithin(adj, cap, a, b);
      AddedWithinTrans(adj, adj', r, [a, b], pool2, pool);
    }
  }

  lemma ParityStep(m: nat, n: nat)
    requires m == n + 2
    ensures m % 2 == n % 2
  {
  }

  /** The loop stops with one member left exactly when the pool had an odd size. */
  lemma {:induction false} PairUpLeftover(adj: Adj, cap: int, pool: seq<nat>, pick: nat -> (nat, nat), round: nat)
    requires Members(pool, |adj|) && NoDup(pool)
    ensures |PairUp(adj, cap, pool, pick, round).1| == |pool| % 2
    decreases |pool|
  {
    if |pool| >= 2 {
      var ij := PickPair(pool, pick(round));
      var a := pool[ij.0];
      var b := pool[ij.1];
      assert a in pool && b in pool && a != b;
      DropPairFacts(pool, a, b);
      var adj' := AddNeighbour(adj, cap, a, b);
      var pool2 := DropPair(pool, a, b);
      PairUpLeftover(adj', cap, pool2, pick, round + 1);
      assert PairUp(adj, cap, pool, pick, round) == PairUp(adj', cap, pool2, pick, round + 1);
      ParityStep(|pool|, |pool2|);
    }
  }

  /**
    `createLoops`: only adds edges, and only between agents of the pool,
    which are exactly the dead ends whose limit exceeds 1; the graph stays
    simple and within individual limits.
   */
  lemma CreateLoopsFacts(adj: Adj, limits: seq<nat>, cap: int, pick: nat -> (nat, nat))
    requires |limits| == |adj| && Simple(adj)
    requires forall x :: 0 <= x < |adj| ==> |adj[x]| <= limits[x]
    ensures Simple(CreateLoops(adj, limits, cap, pick))
    ensures EdgesKept(adj, CreateLoops(adj, limits, cap, pick))
    ensures forall x :: 0 <= x < |adj| ==> |CreateLoops(adj, limits, cap, pick)[x]| <= limits[x]
    ensures AddedWithin(adj, CreateLoops(adj, limits, cap, pick), Pool(adj, limits, 0))
  {
    var pool := Pool(adj, limits, 0);
    PairUpSimple(adj, limits, cap, pool, pick, 0);
    PairUpPairs(adj, cap, pool, pick, 0);
  }

  /** Adding edges keeps every agent reachable from agent 0. */
  lemma ConnectedKept(adj: Adj, adj': Adj)
    requires Connected(adj) && EdgesKept(adj, adj')
    ensures Connected(adj')
  {
    forall v | 0 <= v < |adj'|
      ensures Reachable(adj', v)
    {
      assert Reachable(adj, v);
      var p :| WalkFromRoot(adj, p, v);
      assert WalkFromRoot(adj', p, v);
    }
  }

  // ---------------------------------------------------------------------
  // setupNetworkStructure

  /**
    `setupNetworkStructure`: the proportionate tree, then the loops. The
    initial layout is not modelled. An exception in the first phase leaves
    the graph as it was when thrown. Both callers run it on freshly created
    agents, so every neighbour list starts empty and the tree is built from
    no edges at all.
   */
  function SetupNetworkStructure(net: Net, draw: nat -> nat, pick: nat -> (nat, nat)): (r: (Net, Option<Fault>))
    requires |net.adj| == |net.agents|
    requires forall i :: 0 <= i < |net.adj| ==> net.adj[i] == []
    ensures r.0.agents == net.agents && r.0.cap == net.cap && |r.0.adj| == |net.agents|
    ensures r.1 == Some(IndexOutOfBounds) <==> |net.agents| < 2
    ensures r.1 == None || r.1 == Some(IndexOutOfBounds) || r.1 == Some(IllegalArgument)
  {
    var limits := Limits(net.agents);
    var (adj, fault) := ConnectProportionate(limits, net.cap, draw);
    if fault.Some? then (net.(adj := adj), fault)
    else (net.(adj := CreateLoops(adj, limits, net.cap, pick)), None)
  }

  /**
    With at least two agents whose limits lie between 2 and the cap, the
    set-up succeeds and yields a simple graph in which every agent is
    reachable from agent 0 and every agent is within its individual limit.
   */
  lemma SetupConnected(net: Net, draw: nat -> nat, pick: nat -> (nat, nat))
    requires |net.adj| == |net.agents| && |net.agents| >= 2
    requires forall i :: 0 <= i < |net.adj| ==> net.adj[i] == []
    requires LimitsFit(Limits(net.agents), net.cap)
    ensures SetupNetworkStructure(net, draw, pick).1 == None
    ensures var adj := SetupNetworkStructure(net, draw, pick).0.adj;
      && Simple(adj)
      && Connected(adj)
      && (forall x :: 0 <= x < |adj| ==> |adj[x]| <= net.agents[x].individualLimit)
  {
    var limits := Limits(net.agents);
    ConnectProportionateTree(limits, net.cap, draw);
    var tree := ConnectProportionate(limits, net.cap, draw).0;
    CreateLoopsFacts(tree, limits, net.cap, pick);
    ConnectedKept(tree, CreateLoops(tree, limits, net.cap, pick));
  }
}
